=== FILE: README.md ===
# replicate-monitor: a Dafny model of its core

replicate-monitor watches the public model catalogue of replicate.com. It
reads the site's sitemap and records every listed model page in a url
table: one row per url, with the site, the model label, when the page was
first seen, when it last changed and how many runs have seen it. An
analytics endpoint answers five read-only SQL queries over that table. A
separate script scrapes the listed model pages and writes a Markdown
report of the most-called models.

This project models that core as pure Dafny functions and proves what it
promises:

- `SitemapParser` (sitemap_parser.dfy): the global regular expression
  `<url>\s*<loc>(.*?)</loc>\s*(?:<lastmod>(.*?)</lastmod>)?\s*</url>` and its
  `exec` loop. Matching follows ECMAScript backtracking order: a greedy `\s*`
  only succeeds at its longest run, a lazy `(.*?)` takes the shortest
  line-terminator-free capture that lets the rest match, and the optional
  lastmod group is tried before it is skipped. The loop is proved sound,
  complete and bounded. Parsing a rendered sitemap gives its entries back.
- `UrlTable` (url_table.dfy): the table as a map keyed by its unique `url`
  column. It has both upserts: the check-then-act `insertOrUpdateUrlInfo`
  (a SELECT followed by an UPDATE or an INSERT) and the atomic
  `INSERT … ON CONFLICT(url) DO UPDATE`.
- `Ingestion` (ingestion.dfy): the two ingestion loops.
  - The Pages-function `handleSitemapProcessing` (utils/processSitemap.ts,
    called by functions/api/process-sitemap.ts) catches each entry's error,
    skips that entry and counts the rest.
  - The script's `processSitemap` has no catch, so it stops at the first
    failing entry. The writes before that entry stay in the table.
  - The script's `handleSitemapProcessing` falls back to a default sitemap
    URL.
- `Analytics` (analytics.dfy): the endpoint `onRequest` and its queries.
  - New models since a cutoff.
  - The total run count: SQL's `SUM` of no rows is NULL.
  - The top ten by run count, and the trending models of the last week.
    Both compute their change percent with `LAG … NULLIF`.
  - Per-bucket stats: `GROUP BY date ORDER BY date DESC LIMIT 30`, where
    NULL sorts last.
- `Report` (report.dfy): the collect loop, the sort by call count, the
  total, and the text of the Markdown report, read back line by line.
- Supporting modules:
  - `Strings`: `String.replace` with a string pattern, SQLite's BINARY
    text ordering, and decimal rendering.
  - `Sorting`: a stable insertion sort and `LIMIT`.
  - `Aggregates`: `COUNT … WHERE` and `SUM`, shown to depend only on the
    multiset of rows.
  - `Wrappers`: `Option` and `Result`.

Effects are inputs to the model:

- The network is a `fetch` function from URL to `Fetched`. A failed request,
  an unreadable body, or a body together with its HTTP status.
- `new URL(…).hostname` is a `hostname` function returning `None` when the
  constructor throws.
- The clock is date parameters.
- Scraping a model page is a `process` function.
- Which database statements throw is a set of entry indices.

Notes on the source:

- Ingestion writes the table `replicate_url_info`, and the analytics
  queries read a table named `urls`. The model treats both as the same url
  table.
- The comment at scripts/processSitemap.ts:16 says `firstAppeared` "will be
  overwritten if the entry already exists". The code at
  utils/d1Database.ts:20-24 does the opposite: it updates only
  `lastModified` and `runCount`. The model follows the code
  (`UrlTable.ExistingFirstAppearedKept`).
- `datetime('now', '-1 day')` has the form `YYYY-MM-DD HH:MM:SS`, and
  `firstAppeared` holds a bare `YYYY-MM-DD`. Compared as text, a row first
  seen on the cutoff's own day sorts below the cutoff, so it is not
  counted (`Analytics.CutoffDayNotCounted`).
- The Pages-function `handleSitemapProcessing` returns its count. The
  script's version returns nothing. Yet src/worker.ts:1 imports the
  script's version, so `processedUrls` at src/worker.ts:20 is `undefined`
  and drops out of the JSON it sends back. Its `processSitemap` logs `entries.length` only
  when every write succeeded, because a throwing write rejects the function
  before the log line at scripts/processSitemap.ts:24.
- `parseSitemap` never looks at the HTTP status. An error page is scanned
  like a sitemap.
- `analyzeReplicate` reads the clock twice. It reads it once for the
  report's "Date:" line and once for the file name, so the two can
  differ across midnight. `Report.AnalyzeReplicate` therefore takes two
  dates.

## Model

| member | source | states |
|---|---|---|
| SitemapParser.SkipSpace | utils/sitemapParser.ts:12 | `\s*` before a `<` token takes the longest run of regex white space: all of it is `\s`, and the next character is not |
| SitemapParser.MatchAt | utils/sitemapParser.ts:12 | the pattern matched at the start of a text, in backtracking order; what it yields is stated by `MatchAtShape`, `BlockMatchesWithLastmod` and `BlockMatchesWithoutLastmod`, and its own contract bounds the match length between 22 and the text's length |
| SitemapParser.MatchAtShape | utils/sitemapParser.ts:12 | every match of the pattern starts with `<url>`, ends with `</url>`, and captures a loc and lastmod with no line terminator in them (`.` does not match one) |
| SitemapParser.MatchAtAdvances | utils/sitemapParser.ts:12-15 | every match is non-empty and lies inside the text, so the `exec` loop moves forward |
| SitemapParser.ScanMatches | utils/sitemapParser.ts:15-20 | the matches of the `exec` loop lie inside the body, in increasing order, without overlapping |
| SitemapParser.ScanMatchesSound | utils/sitemapParser.ts:12-20 | every match the loop records starts at a `<url>` and ends with `</url>` at its recorded positions in the body |
| SitemapParser.ScanMatchesComplete | utils/sitemapParser.ts:15-20 | the loop misses no match: each position where the pattern matches lies inside a recorded match |
| SitemapParser.ScanBoundedByOpenTags | utils/sitemapParser.ts:15-20 | the loop records at most one entry per literal `<url>` in the body |
| SitemapParser.Scan | utils/sitemapParser.ts:15-20 | the entries the loop pushes: at most one per `<url>` in the text, none with a line terminator in its loc or lastmod; their order and completeness come from `ScanMatchesSound`, `ScanMatchesComplete` and `ScanStep` |
| SitemapParser.ScanStep | utils/sitemapParser.ts:15-19 | one turn of the loop: on a match the entry is pushed and the search resumes where the match ended; otherwise it resumes one character on |
| SitemapParser.ScanSkipsNoise | utils/sitemapParser.ts:15-20 | text with no `<url>` in it adds no entries |
| SitemapParser.BlockMatchesWithLastmod | utils/sitemapParser.ts:12-19 | a `<url>` block with a `<lastmod>` element matches as a whole and yields its loc and lastmod |
| SitemapParser.BlockMatchesWithoutLastmod | utils/sitemapParser.ts:12-18 | a `<url>` block without a `<lastmod>` element matches as a whole and yields an empty lastmod (`match[2] \|\| ''`) |
| SitemapParser.ParseSitemap | utils/sitemapParser.ts:6-27 | a failed fetch or unreadable body gives `[]`; otherwise there are at most as many entries as `<url>` tags, each free of line terminators |
| SitemapParser.StatusIgnored | utils/sitemapParser.ts:8-9 | records a fact of the source rather than a property of the scan: the status is never read, so two responses with the same body give the same entries |
| SitemapParser.ParseRenderedSitemap | utils/sitemapParser.ts:6-22 | parsing a sitemap rendered from entries whose fields hold no line break or closing tag gives back exactly those entries, in order |
| Strings.IndexOf | utils/processSitemap.ts:13 | finds the first occurrence of the pattern, or reports that none exists |
| Strings.RemoveFirst | utils/processSitemap.ts:13 | `replace` with a string pattern cuts out the first occurrence only, and leaves the text unchanged when there is none |
| Strings.LexLessTransitive | functions/api/analytics.ts:27 | SQLite's BINARY text comparison is transitive |
| Strings.LexLessTotal | functions/api/analytics.ts:27 | any two different texts are ordered one way or the other |
| Strings.ProperPrefixIsLess | functions/api/analytics.ts:27 | a text sorts below any longer text that extends it |
| Strings.DecimalRoundTrip | scripts/analyzeReplicate.ts:39-40 | a rendered count reads back as the same number |
| Strings.DecimalInjective | scripts/analyzeReplicate.ts:47 | different counts render differently |
| UrlTable.UpdateByUrl | utils/d1Database.ts:21-24 | the UPDATE keeps every url and every other row; the matching row gets the new `lastModified`, one more run, and its identity columns unchanged |
| UrlTable.InsertRow | utils/d1Database.ts:26-29 | the INSERT fails with a unique-constraint error exactly when the url is already present; otherwise it adds exactly that row and keeps the others |
| UrlTable.InsertOrUpdateUrlInfo | utils/d1Database.ts:12-31 | run on its own, the check-then-act upsert never fails: a known url is bumped, a new one is inserted as given, nothing else changes |
| UrlTable.CheckThenAct | utils/d1Database.ts:15-30 | with the SELECT reading one table and the act writing another: fails exactly when the url appeared in between; when it vanished in between the UPDATE writes nothing; otherwise it has the upsert's effect |
| UrlTable.CheckThenActRace | utils/d1Database.ts:15-29 | when another writer inserts the url between the SELECT and the INSERT, the call fails with the unique-constraint error |
| UrlTable.InsertOnConflict | utils/processSitemap.ts:15-30 | the atomic upsert never fails: a known url is bumped, with the lastModified bound to the update clause; a new one is inserted; nothing else changes |
| UrlTable.UpsertsAgree | utils/d1Database.ts:12-31 | run one at a time, the check-then-act upsert writes the same table as ON CONFLICT |
| UrlTable.UpsertKeepsKeyedByUrl | utils/processSitemap.ts:19 | after either upsert, every row is still filed under its own url |
| UrlTable.UpsertGrows | utils/d1Database.ts:20-24 | no row disappears, no identity column changes, and run counts never decrease |
| UrlTable.ExistingFirstAppearedKept | utils/d1Database.ts:20-24 | for a known url both upserts keep the stored `firstAppeared` and ignore the one supplied |
| Ingestion.EntryRow | scripts/processSitemap.ts:12-19 | an entry's row carries the site, the loc, `lastmod \|\| currentDate`, the run's date as first sighting, zero runs, and the loc with the site prefix removed |
| Ingestion.ModelLabel | utils/processSitemap.ts:13 | the label differs from the loc exactly when `https://<domain>` occurs in it, and then is shorter by exactly that prefix's length |
| Ingestion.ModelLabelOfSiteUrl | utils/processSitemap.ts:13 | a loc on the sitemap's own host is labelled with its path |
| Ingestion.ModelLabelOfForeignUrl | utils/processSitemap.ts:13 | a loc that does not contain `https://<domain>` keeps its whole text as label |
| Ingestion.ModelLabelNotAnchored | utils/processSitemap.ts:13 | the prefix is removed wherever it first occurs, not only at the start |
| Ingestion.ProcessIsolated | utils/processSitemap.ts:11-36 | the processed count plus the failing entries equals the number of entries |
| Ingestion.HandleSitemapProcessing | utils/processSitemap.ts:3-39 | fails exactly when `new URL` throws on the sitemap URL (`hostname` gives `None`); otherwise it runs the isolating loop over the parsed entries and counts at most one per entry |
| Ingestion.IngestedRows | utils/processSitemap.ts:11-36 | per url: a known url gains one run per written occurrence and keeps its identity; a new url written k times is created with the run's date, the site and its label, and ends with k - 1 runs; an unwritten url is untouched; a written url holds `lastmod \|\| currentDate` of its last written entry |
| Ingestion.FreshRunCount | utils/processSitemap.ts:15-30 | into an empty table with no failures, a url listed k > 0 times gets one row with k - 1 runs, and unlisted urls get none |
| Ingestion.ProcessIsolatedKeyedByUrl | utils/processSitemap.ts:11-36 | the loop keeps every row filed under its own url |
| Ingestion.ProcessIsolatedGrows | utils/processSitemap.ts:11-36 | the isolating loop only makes the table grow |
| Ingestion.ProcessAborting | scripts/processSitemap.ts:9-22 | the script's loop stops at the first failing entry and reports it; it reports no failure exactly when no entry fails |
| Ingestion.ProcessSitemap | scripts/processSitemap.ts:5-25 | the loop with early exit computes the aborting fold, and finishes without failure exactly when no entry fails |
| Ingestion.AbortingStaysAborted | scripts/processSitemap.ts:9-22 | once the loop has stopped, the remaining entries change nothing |
| Ingestion.AbortKeepsPrefix | scripts/processSitemap.ts:9-22 | when entry i is the first to fail, the table holds exactly the writes of entries 0 … i - 1, and they are not rolled back |
| Ingestion.ProcessAbortingGrows | scripts/processSitemap.ts:9-22 | the script's loop only makes the table grow, whether or not it stops early |
| Ingestion.ConfiguredSitemapUrl | scripts/processSitemap.ts:29 | an unset or empty `SITEMAP_URL` selects the replicate.com default; any other value is used as given |
| Ingestion.HandleScriptProcessing | scripts/processSitemap.ts:28-33 | fails exactly when `new URL` throws on the chosen URL (`hostname` gives `None`); otherwise the script completes without failure exactly when no parsed entry fails |
| Ingestion.ScriptHandlerTable | scripts/processSitemap.ts:20-33 | for the URL the script picks (the default one included) and that URL's host as the domain: without a failing write the handler leaves the table the isolating loop leaves; otherwise it reports the first failing entry i and leaves exactly the writes of entries 0 … i - 1, with nothing rolled back |
| Ingestion.VariantsAgree | utils/processSitemap.ts:11-36 | without failures the isolating loop and the script's loop leave the same table, and the isolating loop counts every entry |
| Analytics.Timeframe | functions/api/analytics.ts:21 | a missing or empty `timeframe` parameter means "daily"; any other value is kept |
| Analytics.BucketOf | functions/api/analytics.ts:58-62 | "monthly" groups by month, "weekly" by week, and every other timeframe by day |
| Analytics.StatsField | functions/api/analytics.ts:79 | the response field is the timeframe as given followed by `Stats`: the timeframe is its prefix and the last five characters are `Stats` |
| Analytics.NewModels | functions/api/analytics.ts:24-28 | the count is zero exactly when no row's `firstAppeared` reaches the cutoff, and equals the number of rows exactly when every row's does |
| Analytics.NewModelsPermutation | functions/api/analytics.ts:24-28 | the count does not depend on row order |
| Analytics.NewModelsAntitone | functions/api/analytics.ts:24-28 | a later cutoff never counts more rows |
| Analytics.CutoffDayNotCounted | functions/api/analytics.ts:27 | a row first seen on the cutoff's own day is below a cutoff that carries a time of day |
| Analytics.TotalRunCount | functions/api/analytics.ts:31-34 | the total is NULL exactly for an empty table, and otherwise the sum of the run counts |
| Analytics.TotalRunCountPermutation | functions/api/analytics.ts:31-34 | the total does not depend on row order |
| Analytics.TotalRunCountSplit | functions/api/analytics.ts:31-34 | the total over two non-empty parts is the sum of their totals |
| Analytics.TotalRunCountNonNegative | functions/api/analytics.ts:31-34 | with non-negative run counts the total is non-negative |
| Analytics.ChangePercent | functions/api/analytics.ts:39-40 | NULL exactly when there is no previous row or its count is 0; otherwise the change multiplied back by the previous count gives 100 times the difference |
| Analytics.ChangeNotPositive | functions/api/analytics.ts:39-42 | against a previous row with at least as many runs the change is never positive |
| Analytics.WithChange | functions/api/analytics.ts:38-40 | each row keeps its name and run count; the first has a NULL change (LAG is NULL), every later one the change against the row before it |
| Analytics.ByRunCount | functions/api/analytics.ts:42 | the window and result order is a permutation of the rows with run counts descending |
| Analytics.TopModels | functions/api/analytics.ts:37-44 | min(10, rows) entries, run counts descending; the first entry's change is NULL and every later one carries the change against the entry before it |
| Analytics.TopModelsDominate | functions/api/analytics.ts:42-43 | no row left out of the top ten has more runs than a listed one |
| Analytics.TopModelsAreRows | functions/api/analytics.ts:38-43 | each listed entry carries the name and run count of the row at its rank |
| Analytics.TopModelsChangeNotPositive | functions/api/analytics.ts:39-42 | in run-count order every defined change of the top list is zero or negative |
| Analytics.TrendingWindow | functions/api/analytics.ts:49-52 | the LAG window holds exactly the rows on or after the cutoff, newest first |
| Analytics.TrendingModels | functions/api/analytics.ts:47-55 | min(10, recent rows) entries, ordered by change descending with NULL last, drawn from the LAG window's entries |
| Analytics.TrendingDominate | functions/api/analytics.ts:53-54 | no window entry left out of the list has a greater change than a listed one, and a left-out number is never beaten by a listed NULL |
| Analytics.TrendingChangeFromWindow | functions/api/analytics.ts:48-52 | every trending entry is the window row at some position j, with NULL change for j = 0 and otherwise the change against window row j - 1 |
| Analytics.TrendingFromRecentRows | functions/api/analytics.ts:47-55 | every trending entry is a table row on or after the cutoff, with that row's name and run count |
| Analytics.KeyBeforeTrichotomy | functions/api/analytics.ts:68 | `ORDER BY date DESC`, NULL last, orders any two different keys |
| Analytics.KeyBeforeTransitive | functions/api/analytics.ts:68 | that order is transitive |
| Analytics.GroupKeys | functions/api/analytics.ts:65-68 | the groups' counts add up to the number of rows; shape and per-key counts are stated by `GroupKeysShape` and `GroupKeysCounts` |
| Analytics.GroupKeysShape | functions/api/analytics.ts:65-68 | the groups have distinct keys in strictly descending order, each with a positive count |
| Analytics.GroupKeysCounts | functions/api/analytics.ts:65-67 | each key's count is the number of rows whose bucket is that key |
| Analytics.Stats | functions/api/analytics.ts:64-72 | min(30, groups) groups with distinct keys, descending, each with a count equal to its number of rows and at least 1 |
| Analytics.StatsKeepLatest | functions/api/analytics.ts:67-69 | the limit keeps the latest buckets: a bucket some row falls into that is not listed comes after every listed one under `ORDER BY date DESC` |
| Analytics.StatsCoverRows | functions/api/analytics.ts:64-70 | before the limit the counts add up to the number of rows, and when at most 30 groups exist none is dropped |
| Analytics.OnRequest | functions/api/analytics.ts:15-92 | OPTIONS gets the bare preflight reply; a failing query gives status 500 "Internal Server Error"; otherwise status 200 and the body carries the five query results: new models since the day cutoff, the total run count, the top models, the trending models since the week cutoff, and the stats for `timeframe \|\| 'daily'` under the field `<timeframe>Stats` (so an unknown timeframe gets daily buckets under its own name); the total is NULL exactly for an empty table, and the counts and lengths respect the queries' limits |
| Report.Collect | scripts/analyzeReplicate.ts:11-18 | one model per entry whose page could be read |
| Report.CollectConcat | scripts/analyzeReplicate.ts:11-18 | collecting keeps the entries' order |
| Report.CollectMembers | scripts/analyzeReplicate.ts:11-18 | everything collected is some entry's page data, and every readable entry's data is collected |
| Report.CollectModelData | scripts/analyzeReplicate.ts:11-18 | the push loop computes the collected models |
| Report.SortByCalls | scripts/analyzeReplicate.ts:21 | the sort is a permutation with call counts descending |
| Report.SortByCallsOrdered | scripts/analyzeReplicate.ts:21 | after sorting, an earlier model never has fewer calls than a later one |
| Report.TotalCalls | scripts/analyzeReplicate.ts:35 | the `reduce` total is at least every model's call count; `TotalCallsIsSum` states it is their sum |
| Report.TotalCallsIsSum | scripts/analyzeReplicate.ts:35 | the `reduce` is the sum of the call counts |
| Report.SortKeepsTotal | scripts/analyzeReplicate.ts:21-35 | sorting does not change the total number of calls |
| Report.HeaderText | scripts/analyzeReplicate.ts:37-44 | the appended header text is the title, date, totals, heading and table head, each ended by a line break, with the blank lines the source writes |
| Report.GenerateReport | scripts/analyzeReplicate.ts:33-51 | the report is non-empty and ends with a line break; its lines are stated by `ReportLines` and `ReportRowCount` |
| Report.ReportText | scripts/analyzeReplicate.ts:33-51 | for any data and date, the report is the header lines followed by the rows of the first ten models, ranked from 1, each ended by a line break |
| Report.ReportLines | scripts/analyzeReplicate.ts:33-51 | when the date, the names and the urls hold no line break, the report's lines are the header lines, then one ranked row per listed model, at most ten, in list order; without that condition the text itself is stated by `ReportText` |
| Report.ReportRowCount | scripts/analyzeReplicate.ts:46-48 | when the date, the names and the urls hold no line break, the report has 12 + min(10, n) lines, and line 11 + k is the row of model k ranked k + 1 |
| Report.AnalyzeReplicate | scripts/analyzeReplicate.ts:27-28 | the report is saved as `report-<date>.md` |

## Left out

- Network, body reading and URL parsing: `fetch`, `response.text()` and `new URL(…).hostname` are function parameters of the model. WHATWG URL parsing is not modelled.
- Clock: `new Date().toISOString().split('T')[0]` and SQLite's `datetime('now', …)` are date and cutoff parameters.
- `strftime('%Y-%m', …)`, `strftime('%Y-%W', …)` and `date(…)` are a key function parameter. Only which one a timeframe selects is modelled.
- utils/modelProcessor.ts (`processModelUrl`, cheerio scraping and `parseInt`) is a `process` parameter. Its result's call count is a `nat`, because `parseInt` of digits or 0 is never negative.
- Database failures: which statements throw is a set of entry indices. The causes are not modelled: lost connection, constraint violations other than the unique url, and the missing table.
- Concurrency: only the check-then-act race of one interleaved writer is modelled (`UrlTable.CheckThenActRace`).
- File system and logging: `fs.writeFile`, `console.log` and `console.error` are left out. `Report.AnalyzeReplicate` returns the file name and the text instead.
- HTTP glue: the CORS headers and JSON serialisation of `onRequest` are left out. The Cloudflare route, middleware and demo-data seeding are left out, and so are the React UI and the Next.js route.
- `changePercent` is an exact `real`, not an IEEE double. Run counts and call counts are unbounded integers rather than JavaScript numbers, so the model has no precision loss and no `Infinity`.
- Ties in SQL `ORDER BY`: SQLite leaves their order unspecified, and `Array.prototype.sort` is stable. The model uses one stable insertion sort. No stated property depends on the order of ties, except that `TopModels` and `TrendingModels` take the LAG from the same tie order.
- Text is a sequence of Unicode scalar values, while JavaScript strings are UTF-16 code units. The pattern contains no surrogate-sensitive construct, so matching is the same.
- `SitemapParser.ParseSitemap` does not model the `g` flag's `lastIndex` bookkeeping on an empty match, because no match of this pattern is empty (`SitemapParser.MatchAtAdvances`).
- Report.AnalyzeReplicate: its own contract states only the file name. The report text is described by `Report.ReportLines` and `Report.ReportRowCount` about `GenerateReport`, and the input to it is the sorted collected data (`Report.SortByCalls`, `Report.CollectMembers`).
- Ingestion.ProcessSitemap: the count that the script logs (`entries.length`) is not modelled, because it is only printed.
- Analytics.OnRequest: a query that throws is a `failure` parameter, and the model does not say which query threw.

=== FILE: aggregates.dfy ===
/** Aggregates over a sequence of rows that the SQL queries (`COUNT(*) …
    WHERE`, `SUM`) and the report (`reduce`, `filter`) compute. A table has no
    row order, so each aggregate is shown to depend only on the multiset of
    rows. */
module Aggregates {

  /** Number of elements satisfying `p`. */
  function CountWhere<T>(s: seq<T>, p: T -> bool): (c: nat)
    ensures c <= |s|
    decreases |s|
  {
    if |s| == 0 then 0 else (if p(s[0]) then 1 else 0) + CountWhere(s[1..], p)
  }

  /** Sum of `f` over the elements. */
  function SumBy<T>(s: seq<T>, f: T -> int): int
    decreases |s|
  {
    if |s| == 0 then 0 else f(s[0]) + SumBy(s[1..], f)
  }

  /** The elements satisfying `p`, in their original order. */
  function Filter<T>(s: seq<T>, p: T -> bool): (r: seq<T>)
    ensures |r| == CountWhere(s, p)
    ensures forall i :: 0 <= i < |r| ==> p(r[i])
    ensures forall i :: 0 <= i < |s| && p(s[i]) ==> s[i] in r
    ensures multiset(r) <= multiset(s)
    decreases |s|
  {
    if |s| == 0 then []
    else
      var rest := Filter(s[1..], p);
      assert s == [s[0]] + s[1..];
      if p(s[0]) then [s[0]] + rest else rest
  }

  lemma {:induction false} CountWhereConcat<T>(a: seq<T>, b: seq<T>, p: T -> bool)
    ensures CountWhere(a + b, p) == CountWhere(a, p) + CountWhere(b, p)
    decreases |a|
  {
    if |a| > 0 {
      assert (a + b)[0] == a[0] && (a + b)[1..] == a[1..] + b;
      CountWhereConcat(a[1..], b, p);
    } else {
      assert a + b == b;
    }
  }

  lemma {:induction false} SumByConcat<T>(a: seq<T>, b: seq<T>, f: T -> int)
    ensures SumBy(a + b, f) == SumBy(a, f) + SumBy(b, f)
    decreases |a|
  {
    if |a| > 0 {
      assert (a + b)[0] == a[0] && (a + b)[1..] == a[1..] + b;
      SumByConcat(a[1..], b, f);
    } else {
      assert a + b == b;
    }
  }

  /** Taking an element out of the middle of a sequence. */
  lemma SplitAt<T>(b: seq<T>, j: nat)
    requires j < |b|
    ensures b == b[..j] + ([b[j]] + b[j + 1..])
  {
  }

  /** Finds a position of `x` in `b`. */
  lemma PositionOf<T>(b: seq<T>, x: T) returns (j: nat)
    requires x in multiset(b)
    ensures j < |b| && b[j] == x
  {
    assert x in b;
    var k :| 0 <= k < |b| && b[k] == x;
    j := k;
  }

  /** A property every element of `b` has, every element of a permutation of
      `b` has too. */
  lemma PermutationAll<T>(a: seq<T>, b: seq<T>, p: T -> bool)
    requires multiset(a) == multiset(b)
    requires forall i :: 0 <= i < |b| ==> p(b[i])
    ensures forall i :: 0 <= i < |a| ==> p(a[i])
  {
    forall i | 0 <= i < |a|
      ensures p(a[i])
    {
      assert a[i] in multiset(a);
      var j := PositionOf(b, a[i]);
    }
  }

  /** Removing the first element of `a` and a copy of it from `b` keeps the
      two sequences permutations of each other. */
  lemma RemoveMatching<T>(a: seq<T>, b: seq<T>, j: nat)
    requires multiset(a) == multiset(b)
    requires 0 < |a| && j < |b| && b[j] == a[0]
    ensures multiset(a[1..]) == multiset(b[..j] + b[j + 1..])
  {
    var x := multiset{a[0]};
    var rest := multiset(b[..j] + b[j + 1..]);
    assert a == [a[0]] + a[1..];
    assert multiset(a) == x + multiset(a[1..]);
    SplitAt(b, j);
    assert multiset(b) == multiset(b[..j]) + x + multiset(b[j + 1..]);
    assert rest == multiset(b[..j]) + multiset(b[j + 1..]);
    assert multiset(a[1..]) == multiset(a) - x;
    assert rest == multiset(b) - x;
  }

  /** The count with one element taken out of the middle. */
  lemma CountWhereRemove<T>(b: seq<T>, j: nat, p: T -> bool)
    requires j < |b|
    ensures CountWhere(b, p) == CountWhere(b[..j] + b[j + 1..], p) + (if p(b[j]) then 1 else 0)
  {
    SplitAt(b, j);
    CountWhereConcat(b[..j], [b[j]] + b[j + 1..], p);
    CountWhereConcat(b[..j], b[j + 1..], p);
    assert ([b[j]] + b[j + 1..])[1..] == b[j + 1..];
  }

  /** The sum with one element taken out of the middle. */
  lemma SumByRemove<T>(b: seq<T>, j: nat, f: T -> int)
    requires j < |b|
    ensures SumBy(b, f) == SumBy(b[..j] + b[j + 1..], f) + f(b[j])
  {
    SplitAt(b, j);
    SumByConcat(b[..j], [b[j]] + b[j + 1..], f);
    SumByConcat(b[..j], b[j + 1..], f);
    assert ([b[j]] + b[j + 1..])[1..] == b[j + 1..];
  }

  /** `COUNT(*) … WHERE p` does not depend on the order the rows are read in. */
  lemma {:induction false} CountWherePermutation<T>(a: seq<T>, b: seq<T>, p: T -> bool)
    requires multiset(a) == multiset(b)
    ensures CountWhere(a, p) == CountWhere(b, p)
    decreases |a|
  {
    if |a| == 0 {
      assert |b| == |multiset(b)| == 0;
    } else {
      assert a[0] in multiset(a);
      var j := PositionOf(b, a[0]);
      RemoveMatching(a, b, j);
      CountWherePermutation(a[1..], b[..j] + b[j + 1..], p);
      CountWhereRemove(b, j, p);
    }
  }

  /** `SUM(…)` does not depend on the order the rows are read in. */
  lemma {:induction false} SumByPermutation<T>(a: seq<T>, b: seq<T>, f: T -> int)
    requires multiset(a) == multiset(b)
    ensures SumBy(a, f) == SumBy(b, f)
    decreases |a|
  {
    if |a| == 0 {
      assert |b| == |multiset(b)| == 0;
    } else {
      assert a[0] in multiset(a);
      var j := PositionOf(b, a[0]);
      RemoveMatching(a, b, j);
      SumByPermutation(a[1..], b[..j] + b[j + 1..], f);
      SumByRemove(b, j, f);
    }
  }

  /** No element is counted exactly when none satisfies `p`. */
  lemma {:induction false} CountWhereZero<T>(s: seq<T>, p: T -> bool)
    ensures CountWhere(s, p) == 0 <==> forall i :: 0 <= i < |s| ==> !p(s[i])
    decreases |s|
  {
    if |s| > 0 {
      CountWhereZero(s[1..], p);
      assert forall i :: 1 <= i < |s| ==> s[i] == s[1..][i - 1];
    }
  }

  /** Every element is counted exactly when all satisfy `p`. */
  lemma {:induction false} CountWhereAll<T>(s: seq<T>, p: T -> bool)
    ensures CountWhere(s, p) == |s| <==> forall i :: 0 <= i < |s| ==> p(s[i])
    decreases |s|
  {
    if |s| > 0 {
      CountWhereAll(s[1..], p);
      assert forall i :: 1 <= i < |s| ==> s[i] == s[1..][i - 1];
    }
  }

  /** A sum of non-negative terms is non-negative. */
  lemma {:induction false} SumByNonNegative<T>(s: seq<T>, f: T -> int)
    requires forall i :: 0 <= i < |s| ==> f(s[i]) >= 0
    ensures SumBy(s, f) >= 0
    decreases |s|
  {
    if |s| > 0 {
      SumByNonNegative(s[1..], f);
    }
  }
}

=== FILE: analytics.dfy ===
/** The analytics endpoint: five read-only queries over the url table,
    restated over its rows. The rows come in any order (the queries depend on
    no insertion order), "now"-relative cutoffs such as
    `datetime('now', '-1 day')` are inputs, and dates are compared as TEXT
    under SQLite's BINARY collation, exactly as the queries do. */
module Analytics {
  import opened Wrappers
  import opened Strings
  import opened Sorting
  import opened Aggregates
  import opened UrlTable

  // ---------------------------------------------------------------------------
  // Timeframe
  // ---------------------------------------------------------------------------

  /** `searchParams.get('timeframe') || 'daily'`; `None` is a missing parameter. */
  function Timeframe(param: Option<string>): (r: string)
    ensures r != ""
    ensures param.Some? && param.value != "" ==> r == param.value
    ensures param.None? || param.value == "" ==> r == "daily"
  {
    if param.Some? && param.value != "" then param.value else "daily"
  }

  /** Granularity of the stats grouping: `strftime('%Y-%m', …)`,
      `strftime('%Y-%W', …)` or `date(…)`. */
  datatype Bucket = Month | Week | Day

  /** Every timeframe other than "monthly" and "weekly" groups by day. */
  function BucketOf(timeframe: string): (b: Bucket)
    ensures b == Month <==> timeframe == "monthly"
    ensures b == Week <==> timeframe == "weekly"
    ensures b == Day <==> timeframe != "monthly" && timeframe != "weekly"
  {
    if timeframe == "monthly" then Month
    else if timeframe == "weekly" then Week
    else Day
  }

  /** The response field holding the stats is named after the timeframe as
      given, so an unknown timeframe gets daily buckets under its own name. */
  function StatsField(timeframe: string): (f: string)
    ensures |f| == |timeframe| + 5
    ensures timeframe <= f
    ensures f[|timeframe|..] == "Stats"
  {
    timeframe + "Stats"
  }

  // ---------------------------------------------------------------------------
  // New models: COUNT(*) WHERE firstAppeared >= cutoff
  // ---------------------------------------------------------------------------

  /** The row's `firstAppeared` is on or after `cutoff` as TEXT. */
  function Since(cutoff: string): UrlInfo -> bool {
    (row: UrlInfo) => LexLeq(cutoff, row.firstAppeared)
  }

  /** `SELECT COUNT(*) FROM urls WHERE firstAppeared >= cutoff`. */
  function NewModels(rows: seq<UrlInfo>, cutoff: string): (n: nat)
    ensures n <= |rows|
    ensures n == 0 <==> forall i :: 0 <= i < |rows| ==> !LexLeq(cutoff, rows[i].firstAppeared)
    ensures n == |rows| <==> forall i :: 0 <= i < |rows| ==> LexLeq(cutoff, rows[i].firstAppeared)
  {
    CountWhereZero(rows, Since(cutoff));
    CountWhereAll(rows, Since(cutoff));
    CountWhere(rows, Since(cutoff))
  }

  /** The count does not depend on the order the rows are read in. */
  lemma NewModelsPermutation(a: seq<UrlInfo>, b: seq<UrlInfo>, cutoff: string)
    requires multiset(a) == multiset(b)
    ensures NewModels(a, cutoff) == NewModels(b, cutoff)
  {
    CountWherePermutation(a, b, Since(cutoff));
  }

  /** A later cutoff never counts more rows. */
  lemma {:induction false} NewModelsAntitone(rows: seq<UrlInfo>, earlier: string, later: string)
    requires LexLeq(earlier, later)
    ensures NewModels(rows, later) <= NewModels(rows, earlier)
    decreases |rows|
  {
    if |rows| > 0 {
      NewModelsAntitone(rows[1..], earlier, later);
      if LexLeq(later, rows[0].firstAppeared) && earlier != later && later != rows[0].firstAppeared {
        LexLessTransitive(earlier, later, rows[0].firstAppeared);
      }
    }
  }

  /** `datetime('now', '-1 day')` has a time part while `firstAppeared` holds
      a bare date, so a row first seen on the cutoff's own day sorts below the
      cutoff and is not counted. */
  lemma CutoffDayNotCounted(row: UrlInfo, day: string, time: string)
    requires |time| > 0 && row.firstAppeared == day
    ensures NewModels([row], day + time) == 0
  {
    ProperPrefixIsLess(day, time);
    LexLessAsymmetric(day, day + time);
    assert day != day + time;
  }

  // ---------------------------------------------------------------------------
  // Total run count: SUM(runCount)
  // ---------------------------------------------------------------------------

  function RunCountOf(row: UrlInfo): int {
    row.runCount
  }

  /** `SELECT SUM(runCount) FROM urls`: SQL's SUM of no rows is NULL. */
  function TotalRunCount(rows: seq<UrlInfo>): (r: Option<int>)
    ensures r.None? <==> |rows| == 0
    ensures r.Some? ==> r.value == SumBy(rows, RunCountOf)
  {
    if |rows| == 0 then None else Some(SumBy(rows, RunCountOf))
  }

  /** The total does not depend on the order the rows are read in, and adds
      up over any split of the table. */
  lemma TotalRunCountPermutation(a: seq<UrlInfo>, b: seq<UrlInfo>)
    requires multiset(a) == multiset(b)
    ensures TotalRunCount(a) == TotalRunCount(b)
  {
    SumByPermutation(a, b, RunCountOf);
    assert |a| == |multiset(a)| == |multiset(b)| == |b|;
  }

  lemma TotalRunCountSplit(a: seq<UrlInfo>, b: seq<UrlInfo>)
    requires |a| > 0 && |b| > 0
    ensures TotalRunCount(a + b).value == TotalRunCount(a).value + TotalRunCount(b).value
  {
    SumByConcat(a, b, RunCountOf);
  }

  /** With the table's non-negative run counts the total is never negative. */
  lemma TotalRunCountNonNegative(rows: seq<UrlInfo>)
    requires |rows| > 0
    requires forall i :: 0 <= i < |rows| ==> rows[i].runCount >= 0
    ensures TotalRunCount(rows).value >= 0
  {
    SumByNonNegative(rows, RunCountOf);
  }

  // ---------------------------------------------------------------------------
  // LAG-based change percent
  // ---------------------------------------------------------------------------

  /** A listed model with its change against the row before it. */
  datatype ModelChange = ModelChange(modelName: string, runCount: int, changePercent: Option<real>)

  /** `(runCount - LAG(runCount)) * 100.0 / NULLIF(LAG(runCount), 0)`: NULL
      when there is no previous row (LAG is NULL) or its run count is 0. */
  function ChangePercent(previous: Option<int>, current: int): (r: Option<real>)
    ensures r.None? <==> previous.None? || previous.value == 0
    ensures r.Some? ==> r.value * previous.value as real == (current - previous.value) as real * 100.0
  {
    match previous
    case None => None
    case Some(p) => if p == 0 then None else Some((current - p) as real * 100.0 / p as real)
  }

  /** Against a previous row with at least as many runs the change is never
      positive. */
  lemma ChangeNotPositive(previous: int, current: int)
    requires previous > 0 && previous >= current
    ensures ChangePercent(Some(previous), current).value <= 0.0
  {
    var r := ChangePercent(Some(previous), current).value;
    assert r * previous as real <= 0.0;
  }

  /** Attaches the LAG-based change to each row, in the order of `s`: the
      first row has no predecessor, every later one is compared with the row
      before it. */
  function WithChange(s: seq<UrlInfo>): (r: seq<ModelChange>)
    ensures |r| == |s|
    ensures forall k :: 0 <= k < |s| ==> r[k].modelName == s[k].modelName && r[k].runCount == s[k].runCount
    ensures |r| > 0 ==> r[0].changePercent.None?
    ensures forall k :: 0 < k < |s| ==> r[k].changePercent == ChangePercent(Some(s[k - 1].runCount), s[k].runCount)
  {
    seq(|s|, k requires 0 <= k < |s| =>
      ModelChange(s[k].modelName, s[k].runCount,
                  ChangePercent(if k == 0 then None else Some(s[k - 1].runCount), s[k].runCount)))
  }

  // ---------------------------------------------------------------------------
  // Top models: ORDER BY runCount DESC LIMIT 10
  // ---------------------------------------------------------------------------

  predicate RunCountAtLeast(a: UrlInfo, b: UrlInfo) {
    a.runCount >= b.runCount
  }

  /** The rows in `ORDER BY runCount DESC` order; ties keep table order. */
  function ByRunCount(rows: seq<UrlInfo>): (s: seq<UrlInfo>)
    ensures multiset(s) == multiset(rows)
    ensures SortedBy(s, RunCountAtLeast)
  {
    SortBySorted(rows, RunCountAtLeast);
    SortBy(rows, RunCountAtLeast)
  }

  /** The `topModels` query. */
  function TopModels(rows: seq<UrlInfo>): (r: seq<ModelChange>)
    ensures |r| == if |rows| < 10 then |rows| else 10
    ensures forall k :: 0 < k < |r| ==> r[k - 1].runCount >= r[k].runCount
    ensures |r| > 0 ==> r[0].changePercent.None?
    ensures forall k :: 0 < k < |r| ==> r[k].changePercent == ChangePercent(Some(r[k - 1].runCount), r[k].runCount)
  {
    Take(WithChange(ByRunCount(rows)), 10)
  }

  /** No row left out of the top list has more runs than a listed one. */
  lemma TopModelsDominate(rows: seq<UrlInfo>)
    ensures var s := ByRunCount(rows);
            forall j, k :: 10 <= j < |s| && 0 <= k < |TopModels(rows)| ==>
              s[j].runCount <= TopModels(rows)[k].runCount
  {
    var s := ByRunCount(rows);
    var r := TopModels(rows);
    TopModelsAreRows(rows);
    forall j, k | 10 <= j < |s| && 0 <= k < |r|
      ensures s[j].runCount <= r[k].runCount
    {
      TopModelsEntry(rows, k);
      SortedPairwise(s, RunCountAtLeast, k, j);
    }
  }

  /** Entry `k` of the top list is row `k` in run-count order, with the
      change against row `k - 1`. */
  lemma TopModelsEntry(rows: seq<UrlInfo>, k: nat)
    requires k < |TopModels(rows)|
    ensures var s := ByRunCount(rows);
            && k < |s|
            && TopModels(rows)[k].runCount == s[k].runCount
            && (k > 0 ==> TopModels(rows)[k].changePercent == ChangePercent(Some(s[k - 1].runCount), s[k].runCount))
  {
    var w := WithChange(ByRunCount(rows));
    assert TopModels(rows)[k] == w[k];
  }

  /** The listed rows are the first ones in run-count order, each with its
      own name and run count. */
  lemma TopModelsAreRows(rows: seq<UrlInfo>)
    ensures var s := ByRunCount(rows);
            forall k :: 0 <= k < |TopModels(rows)| ==>
              TopModels(rows)[k].modelName == s[k].modelName &&
              TopModels(rows)[k].runCount == s[k].runCount
  {
  }

  /** In run-count order every defined change is zero or negative, given the
      table's non-negative run counts. */
  lemma TopModelsChangeNotPositive(rows: seq<UrlInfo>)
    requires forall i :: 0 <= i < |rows| ==> rows[i].runCount >= 0
    ensures forall k :: 0 <= k < |TopModels(rows)| && TopModels(rows)[k].changePercent.Some? ==>
              TopModels(rows)[k].changePercent.value <= 0.0
  {
    var s := ByRunCount(rows);
    var r := TopModels(rows);
    ByRunCountNonNegative(rows);
    forall k | 0 <= k < |r| && r[k].changePercent.Some?
      ensures r[k].changePercent.value <= 0.0
    {
      TopModelsEntry(rows, k);
      SortedPairwise(s, RunCountAtLeast, k - 1, k);
      ChangeNotPositive(s[k - 1].runCount, s[k].runCount);
    }
  }

  /** Sorting keeps the table's run counts non-negative. */
  lemma ByRunCountNonNegative(rows: seq<UrlInfo>)
    requires forall i :: 0 <= i < |rows| ==> rows[i].runCount >= 0
    ensures forall i :: 0 <= i < |ByRunCount(rows)| ==> ByRunCount(rows)[i].runCount >= 0
  {
    var s := ByRunCount(rows);
    forall i | 0 <= i < |s|
      ensures s[i].runCount >= 0
    {
      assert s[i] in multiset(rows);
    }
  }

  // ---------------------------------------------------------------------------
  // Trending models
  // ---------------------------------------------------------------------------

  predicate AppearedNoEarlier(a: UrlInfo, b: UrlInfo) {
    LexLeq(b.firstAppeared, a.firstAppeared)
  }

  lemma AppearedNoEarlierTotal()
    ensures Total(AppearedNoEarlier)
  {
    forall a: UrlInfo, b: UrlInfo
      ensures AppearedNoEarlier(a, b) || AppearedNoEarlier(b, a)
    {
      LexLessTotal(a.firstAppeared, b.firstAppeared);
    }
  }

  /** `ORDER BY changePercent DESC`: SQLite sorts NULL below every number, so
      NULLs come last. */
  predicate ChangeAtLeast(a: ModelChange, b: ModelChange) {
    b.changePercent.None? || (a.changePercent.Some? && a.changePercent.value >= b.changePercent.value)
  }

  /** The LAG window of the trending query: rows on or after the cutoff, in
      `ORDER BY firstAppeared DESC` order. */
  function TrendingWindow(rows: seq<UrlInfo>, cutoff: string): (w: seq<UrlInfo>)
    ensures multiset(w) == multiset(Filter(rows, Since(cutoff)))
    ensures SortedBy(w, AppearedNoEarlier)
    ensures forall k :: 0 <= k < |w| ==> LexLeq(cutoff, w[k].firstAppeared)
  {
    var recent := Filter(rows, Since(cutoff));
    AppearedNoEarlierTotal();
    SortBySorted(recent, AppearedNoEarlier);
    var w := SortBy(recent, AppearedNoEarlier);
    PermutationAll(w, recent, Since(cutoff));
    w
  }

  /** The `trendingModels` query. */
  function TrendingModels(rows: seq<UrlInfo>, cutoff: string): (r: seq<ModelChange>)
    ensures |r| <= 10
    ensures |r| == if CountWhere(rows, Since(cutoff)) < 10 then CountWhere(rows, Since(cutoff)) else 10
    ensures SortedBy(r, ChangeAtLeast)
    ensures multiset(r) <= multiset(WithChange(TrendingWindow(rows, cutoff)))
  {
    var ranked := WithChange(TrendingWindow(rows, cutoff));
    SortBySorted(ranked, ChangeAtLeast);
    assert |multiset(TrendingWindow(rows, cutoff))| == |Filter(rows, Since(cutoff))|;
    TakeSorted(SortBy(ranked, ChangeAtLeast), 10, ChangeAtLeast);
    TakeIncluded(SortBy(ranked, ChangeAtLeast), 10);
    Take(SortBy(ranked, ChangeAtLeast), 10)
  }

  lemma ChangeAtLeastTransitive()
    ensures Transitive(ChangeAtLeast)
  {
  }

  /** No window row left out of the trending list has a greater change than
      a listed one; a NULL change never beats a number. */
  lemma TrendingDominate(rows: seq<UrlInfo>, cutoff: string)
    ensures var s := SortBy(WithChange(TrendingWindow(rows, cutoff)), ChangeAtLeast);
            forall j, k :: 10 <= j < |s| && 0 <= k < |TrendingModels(rows, cutoff)| ==>
              ChangeAtLeast(TrendingModels(rows, cutoff)[k], s[j])
  {
    var ranked := WithChange(TrendingWindow(rows, cutoff));
    var s := SortBy(ranked, ChangeAtLeast);
    var r := TrendingModels(rows, cutoff);
    SortBySorted(ranked, ChangeAtLeast);
    ChangeAtLeastTransitive();
    forall j, k | 10 <= j < |s| && 0 <= k < |r|
      ensures ChangeAtLeast(r[k], s[j])
    {
      assert r[k] == s[k];
      SortedPairwise(s, ChangeAtLeast, k, j);
    }
  }

  /** Each trending entry is the row at some position `j` of the LAG window,
      with the change against the window row before it (NULL for the first
      row of the window). */
  lemma TrendingChangeFromWindow(rows: seq<UrlInfo>, cutoff: string, k: nat) returns (j: nat)
    requires k < |TrendingModels(rows, cutoff)|
    ensures var w := TrendingWindow(rows, cutoff);
            var m := TrendingModels(rows, cutoff)[k];
            && j < |w| && m.modelName == w[j].modelName && m.runCount == w[j].runCount
            && m.changePercent == (if j == 0 then None else ChangePercent(Some(w[j - 1].runCount), w[j].runCount))
  {
    var r := TrendingModels(rows, cutoff);
    assert r[k] in multiset(r);
    j := ChangeOfListed(TrendingWindow(rows, cutoff), r[k]);
  }

  /** Any element of `WithChange(s)` is the row at some position of `s`, with
      the change against the row before it. */
  lemma ChangeOfListed(s: seq<UrlInfo>, m: ModelChange) returns (j: nat)
    requires m in multiset(WithChange(s))
    ensures j < |s| && m.modelName == s[j].modelName && m.runCount == s[j].runCount
    ensures m.changePercent == (if j == 0 then None else ChangePercent(Some(s[j - 1].runCount), s[j].runCount))
  {
    j := PositionOf(WithChange(s), m);
  }

  /** Every trending entry is a row of the table that appeared on or after the
      cutoff, listed with that row's name and run count. */
  lemma TrendingFromRecentRows(rows: seq<UrlInfo>, cutoff: string, k: nat)
    requires k < |TrendingModels(rows, cutoff)|
    ensures exists i :: 0 <= i < |rows| && LexLeq(cutoff, rows[i].firstAppeared) &&
                        rows[i].modelName == TrendingModels(rows, cutoff)[k].modelName &&
                        rows[i].runCount == TrendingModels(rows, cutoff)[k].runCount
  {
    var w := TrendingWindow(rows, cutoff);
    var ranked := WithChange(w);
    var sorted := SortBy(ranked, ChangeAtLeast);
    var m := TrendingModels(rows, cutoff)[k];
    assert m == sorted[k];
    assert m in multiset(ranked);
    var j := PositionOf(ranked, m);
    assert w[j] in multiset(Filter(rows, Since(cutoff)));
    assert w[j] in rows;
    var i :| 0 <= i < |rows| && rows[i] == w[j];
  }

  // ---------------------------------------------------------------------------
  // Time-based stats: GROUP BY date ORDER BY date DESC LIMIT 30
  // ---------------------------------------------------------------------------

  /** One group of the stats query; `date` is NULL when the bucket function
      cannot read `firstAppeared`. */
  datatype Stat = Stat(date: Option<string>, count: nat)

  /** `a` comes before `b` under `ORDER BY date DESC`, NULL last. */
  predicate KeyBefore(a: Option<string>, b: Option<string>) {
    a.Some? && (b.None? || LexLess(b.value, a.value))
  }

  lemma KeyBeforeTrichotomy(a: Option<string>, b: Option<string>)
    ensures a == b || KeyBefore(a, b) || KeyBefore(b, a)
  {
    if a.Some? && b.Some? {
      LexLessTotal(a.value, b.value);
    }
  }

  lemma KeyBeforeTransitive(a: Option<string>, b: Option<string>, c: Option<string>)
    requires KeyBefore(a, b) && KeyBefore(b, c)
    ensures KeyBefore(a, c)
  {
    if c.Some? {
      LexLessTransitive(c.value, b.value, a.value);
    }
  }

  lemma KeyBeforeIrreflexive(a: Option<string>)
    ensures !KeyBefore(a, a)
  {
    if a.Some? {
      LexLessIrreflexive(a.value);
    }
  }

  /** Keys strictly descending: the groups are distinct and in query order. */
  predicate StrictlyDescending(s: seq<Stat>) {
    forall i :: 0 < i < |s| ==> KeyBefore(s[i - 1].date, s[i].date)
  }

  predicate AllPositive(s: seq<Stat>) {
    forall i :: 0 <= i < |s| ==> s[i].count >= 1
  }

  function SumCounts(s: seq<Stat>): nat
    decreases |s|
  {
    if |s| == 0 then 0 else s[0].count + SumCounts(s[1..])
  }

  /** Total count of the groups labelled `d`. */
  function CountFor(s: seq<Stat>, d: Option<string>): nat
    decreases |s|
  {
    if |s| == 0 then 0 else (if s[0].date == d then s[0].count else 0) + CountFor(s[1..], d)
  }

  /** Adds one row whose key is `k` to the groups. */
  function AddKey(k: Option<string>, s: seq<Stat>): (r: seq<Stat>)
    ensures |r| > 0
    ensures r[0].date == k || (|s| > 0 && r[0].date == s[0].date)
    ensures SumCounts(r) == SumCounts(s) + 1
    decreases |s|
  {
    if |s| == 0 then [Stat(k, 1)]
    else if s[0].date == k then [Stat(k, s[0].count + 1)] + s[1..]
    else if KeyBefore(k, s[0].date) then [Stat(k, 1)] + s
    else [s[0]] + AddKey(k, s[1..])
  }

  lemma {:induction false} AddKeyCounts(k: Option<string>, s: seq<Stat>, d: Option<string>)
    ensures CountFor(AddKey(k, s), d) == CountFor(s, d) + (if d == k then 1 else 0)
    decreases |s|
  {
    if |s| > 0 && s[0].date != k && !KeyBefore(k, s[0].date) {
      AddKeyCounts(k, s[1..], d);
      assert ([s[0]] + AddKey(k, s[1..]))[1..] == AddKey(k, s[1..]);
    } else if |s| > 0 && s[0].date == k {
      assert ([Stat(k, s[0].count + 1)] + s[1..])[1..] == s[1..];
    } else if |s| > 0 {
      assert ([Stat(k, 1)] + s)[1..] == s;
    }
  }

  lemma {:induction false} AddKeyShape(k: Option<string>, s: seq<Stat>)
    requires StrictlyDescending(s) && AllPositive(s)
    ensures StrictlyDescending(AddKey(k, s)) && AllPositive(AddKey(k, s))
    decreases |s|
  {
    if |s| > 0 && s[0].date != k && !KeyBefore(k, s[0].date) {
      AddKeyShape(k, s[1..]);
      KeyBeforeTrichotomy(k, s[0].date);
      var t := AddKey(k, s[1..]);
      var r := [s[0]] + t;
      forall i | 0 < i < |r|
        ensures KeyBefore(r[i - 1].date, r[i].date)
      {
        if i > 1 {
          assert r[i - 1] == t[i - 2] && r[i] == t[i - 1];
        }
      }
    }
  }

  /** The GROUP BY: one group per distinct key, keys strictly descending with
      NULL last; the counts add up to the number of rows. */
  function GroupKeys(keys: seq<Option<string>>): (r: seq<Stat>)
    ensures SumCounts(r) == |keys|
    decreases |keys|
  {
    if |keys| == 0 then [] else AddKey(keys[0], GroupKeys(keys[1..]))
  }

  lemma {:induction false} GroupKeysShape(keys: seq<Option<string>>)
    ensures StrictlyDescending(GroupKeys(keys)) && AllPositive(GroupKeys(keys))
    decreases |keys|
  {
    if |keys| > 0 {
      GroupKeysShape(keys[1..]);
      AddKeyShape(keys[0], GroupKeys(keys[1..]));
    }
  }

  /** Each key's groups count exactly the rows carrying that key. */
  lemma {:induction false} GroupKeysCounts(keys: seq<Option<string>>, d: Option<string>)
    ensures CountFor(GroupKeys(keys), d) == multiset(keys)[d]
    decreases |keys|
  {
    if |keys| > 0 {
      GroupKeysCounts(keys[1..], d);
      AddKeyCounts(keys[0], GroupKeys(keys[1..]), d);
      assert keys == [keys[0]] + keys[1..];
      assert multiset(keys) == multiset{keys[0]} + multiset(keys[1..]);
    }
  }

  /** In strictly descending groups no key repeats, so a group's count is
      the whole count for its key. */
  lemma {:induction false} DistinctGroupCount(s: seq<Stat>, i: nat)
    requires StrictlyDescending(s) && i < |s|
    ensures CountFor(s, s[i].date) == s[i].count
    decreases |s|
  {
    if i > 0 {
      DistinctGroupCount(s[1..], i - 1);
      KeyBeforeChain(s, 0, i);
      KeyBeforeIrreflexive(s[0].date);
    } else {
      NoLaterKey(s[1..], s[0].date);
    }
  }

  /** Every key of a strictly descending sequence comes after its first key. */
  lemma {:induction false} KeyBeforeChain(s: seq<Stat>, i: nat, j: nat)
    requires StrictlyDescending(s) && i < j < |s|
    ensures KeyBefore(s[i].date, s[j].date)
    decreases j - i
  {
    if i + 1 < j {
      KeyBeforeChain(s, i + 1, j);
      KeyBeforeTransitive(s[i].date, s[i + 1].date, s[j].date);
    }
  }

  /** A key placed before every group of `s` labels none of them. */
  lemma {:induction false} NoLaterKey(s: seq<Stat>, d: Option<string>)
    requires StrictlyDescending(s)
    requires |s| > 0 ==> KeyBefore(d, s[0].date)
    ensures CountFor(s, d) == 0
    decreases |s|
  {
    if |s| > 0 {
      KeyBeforeIrreflexive(d);
      if |s| > 1 {
        KeyBeforeTransitive(d, s[0].date, s[1].date);
      }
      NoLaterKey(s[1..], d);
    }
  }

  /** The bucket key of every row; `key` stands for SQLite's `strftime` and
      `date` functions, which are not modelled. */
  function BucketKeys(rows: seq<UrlInfo>, b: Bucket, key: (Bucket, string) -> Option<string>)
    : (keys: seq<Option<string>>)
    ensures |keys| == |rows|
  {
    seq(|rows|, i requires 0 <= i < |rows| => key(b, rows[i].firstAppeared))
  }

  /** The stats query for `timeframe`. */
  function Stats(rows: seq<UrlInfo>, timeframe: string, key: (Bucket, string) -> Option<string>)
    : (r: seq<Stat>)
    ensures |r| <= 30
    ensures var g := GroupKeys(BucketKeys(rows, BucketOf(timeframe), key));
            |r| == if |g| < 30 then |g| else 30
    ensures StrictlyDescending(r)
    ensures forall i :: 0 <= i < |r| ==>
              1 <= r[i].count == multiset(BucketKeys(rows, BucketOf(timeframe), key))[r[i].date]
  {
    var keys := BucketKeys(rows, BucketOf(timeframe), key);
    var g := GroupKeys(keys);
    GroupKeysShape(keys);
    var r := Take(g, 30);
    forall i | 0 <= i < |r|
      ensures r[i].count == multiset(keys)[r[i].date]
    {
      DistinctGroupCount(g, i);
      GroupKeysCounts(keys, g[i].date);
    }
    r
  }

  /** Some group carries every key that is counted at all. */
  lemma {:induction false} ListedKey(s: seq<Stat>, d: Option<string>) returns (m: nat)
    requires CountFor(s, d) > 0
    ensures m < |s| && s[m].date == d
    decreases |s|
  {
    if s[0].date == d {
      m := 0;
    } else {
      var m' := ListedKey(s[1..], d);
      m := m' + 1;
    }
  }

  /** The limit keeps the latest buckets: a bucket some row falls into that
      is not listed comes after every listed one under `ORDER BY date DESC`. */
  lemma StatsKeepLatest(rows: seq<UrlInfo>, timeframe: string, key: (Bucket, string) -> Option<string>,
                        d: Option<string>)
    requires d in multiset(BucketKeys(rows, BucketOf(timeframe), key))
    requires forall j :: 0 <= j < |Stats(rows, timeframe, key)| ==> Stats(rows, timeframe, key)[j].date != d
    ensures forall i :: 0 <= i < |Stats(rows, timeframe, key)| ==> KeyBefore(Stats(rows, timeframe, key)[i].date, d)
  {
    var keys := BucketKeys(rows, BucketOf(timeframe), key);
    var g := GroupKeys(keys);
    var r := Stats(rows, timeframe, key);
    GroupKeysShape(keys);
    GroupKeysCounts(keys, d);
    var m := ListedKey(g, d);
    assert forall i :: 0 <= i < |r| ==> r[i] == g[i];
    assert |r| <= m;
    forall i | 0 <= i < |r|
      ensures KeyBefore(r[i].date, d)
    {
      KeyBeforeChain(g, i, m);
    }
  }

  /** Before the limit the groups cover every row exactly once. */
  lemma StatsCoverRows(rows: seq<UrlInfo>, timeframe: string, key: (Bucket, string) -> Option<string>)
    ensures SumCounts(GroupKeys(BucketKeys(rows, BucketOf(timeframe), key))) == |rows|
    ensures |GroupKeys(BucketKeys(rows, BucketOf(timeframe), key))| <= 30 ==>
              Stats(rows, timeframe, key) == GroupKeys(BucketKeys(rows, BucketOf(timeframe), key))
  {
  }

  // ---------------------------------------------------------------------------
  // The endpoint
  // ---------------------------------------------------------------------------

  datatype AnalyticsBody = AnalyticsBody(
    newModels: nat,
    totalRunCount: Option<int>,
    topModels: seq<ModelChange>,
    trendingModels: seq<ModelChange>,
    statsField: string,
    stats: seq<Stat>)

  datatype Response =
    | Preflight
    | Analytics(status: nat, body: AnalyticsBody)
    | ServerError(status: nat, error: string, details: string)

  /** `onRequest`. `dayCutoff` and `weekCutoff` are the values of
      `datetime('now', '-1 day')` and `datetime('now', '-7 days')`;
      `failure` is the message of an error thrown by any query. */
  function OnRequest(httpMethod: string, timeframeParam: Option<string>, rows: seq<UrlInfo>,
                     dayCutoff: string, weekCutoff: string,
                     key: (Bucket, string) -> Option<string>, failure: Option<string>)
    : (r: Response)
    ensures httpMethod == "OPTIONS" <==> r.Preflight?
    ensures r.ServerError? <==> httpMethod != "OPTIONS" && failure.Some?
    ensures r.ServerError? ==> r.status == 500 && r.error == "Internal Server Error"
    ensures r.Analytics? ==>
              && r.status == 200
              && r.body.newModels <= |rows|
              && (r.body.totalRunCount.None? <==> |rows| == 0)
              && |r.body.topModels| <= 10 && |r.body.trendingModels| <= 10
              && r.body.statsField == Timeframe(timeframeParam) + "Stats"
              && |r.body.stats| <= 30
    ensures r.Analytics? ==>
              && r.body.newModels == NewModels(rows, dayCutoff)
              && r.body.totalRunCount == TotalRunCount(rows)
              && r.body.topModels == TopModels(rows)
              && r.body.trendingModels == TrendingModels(rows, weekCutoff)
              && r.body.stats == Stats(rows, Timeframe(timeframeParam), key)
  {
    if httpMethod == "OPTIONS" then Preflight
    else if failure.Some? then ServerError(500, "Internal Server Error", failure.value)
    else
      var timeframe := Timeframe(timeframeParam);
      Analytics(200, AnalyticsBody(
        NewModels(rows, dayCutoff),
        TotalRunCount(rows),
        TopModels(rows),
        TrendingModels(rows, weekCutoff),
        StatsField(timeframe),
        Stats(rows, timeframe, key)))
  }
}

=== FILE: ingestion.dfy ===
/** Sitemap ingestion: every parsed entry becomes an upsert on the url table,
    one after another. Two variants exist side by side:
    - the Pages-function `handleSitemapProcessing` (utils/processSitemap.ts)
      wraps each entry in try/catch, skips the entries whose statement throws
      and returns how many succeeded;
    - the script's `processSitemap` has no try/catch, so the first throwing
      entry aborts the loop, and the writes before it stay in the table.
    Which statements throw is not visible in the code (it depends on the
    database), so it is an input: the set of entry indices whose write fails. */
module Ingestion {
  import opened Wrappers
  import opened Strings
  import opened SitemapParser
  import opened UrlTable

  /** Used by the script when `SITEMAP_URL` is unset or empty. */
  const DefaultSitemapUrl: string := "https://replicate.com/sitemap-models.xml"

  /** `new URL(sitemapUrl)` throws before anything is fetched or written. */
  datatype IngestError = InvalidSitemapUrl(url: string)

  // ---------------------------------------------------------------------------
  // From entry to row
  // ---------------------------------------------------------------------------

  /** `entry.lastmod || currentDate`: an empty `lastmod` is falsy. */
  function EffectiveLastModified(lastmod: string, currentDate: string): string {
    if lastmod != "" then lastmod else currentDate
  }

  /** `loc.replace(`https://${domain}`, '')`: the FIRST occurrence of the site
      prefix is cut out, wherever it stands in `loc`. */
  function ModelLabel(loc: string, domain: string): (r: string)
    ensures r == loc <==> IndexOf(loc, "https://" + domain).None?
    ensures IndexOf(loc, "https://" + domain).Some? ==> |r| + |"https://" + domain| == |loc|
  {
    RemoveFirst(loc, "https://" + domain)
  }

  /** The row both variants write for an entry, found on its first sighting. */
  function EntryRow(e: SitemapEntry, domain: string, currentDate: string): (r: UrlInfo)
    ensures r.url == e.loc && r.sitename == domain
    ensures r.firstAppeared == currentDate && r.runCount == 0
    ensures e.lastmod != "" ==> r.lastModified == e.lastmod
    ensures e.lastmod == "" ==> r.lastModified == currentDate
    ensures r.modelName == ModelLabel(e.loc, domain)
  {
    UrlInfo(domain, e.loc, EffectiveLastModified(e.lastmod, currentDate), currentDate, 0,
            ModelLabel(e.loc, domain))
  }

  /** A location on the sitemap's own site is labelled by its path. */
  lemma ModelLabelOfSiteUrl(domain: string, path: string)
    ensures ModelLabel("https://" + domain + path, domain) == path
  {
    var pat := "https://" + domain;
    RemoveFirstOfPrefix(pat + path, pat);
    assert (pat + path)[|pat|..] == path;
  }

  /** A location that does not mention the site prefix keeps its full text. */
  lemma ModelLabelOfForeignUrl(loc: string, domain: string)
    requires forall j :: 0 <= j <= |loc| ==> !OccursAt(loc, j, "https://" + domain)
    ensures ModelLabel(loc, domain) == loc
  {
    RemoveFirstAbsent(loc, "https://" + domain);
  }

  /** The removal is not anchored at the start: a prefix occurring later in
      `loc` is cut out there. */
  lemma ModelLabelNotAnchored(lead: string, domain: string, rest: string)
    requires forall j :: 0 <= j <= |lead| ==> !OccursAt(lead + ("https://" + domain), j, "https://" + domain) || j == |lead|
    ensures ModelLabel(lead + ("https://" + domain) + rest, domain) == lead + rest
  {
    RemoveFirstInside(lead, "https://" + domain, rest);
  }

  // ---------------------------------------------------------------------------
  // The Pages-function handler: failures are isolated and counted
  // ---------------------------------------------------------------------------

  /** Table after the loop and the returned `processedCount`. */
  datatype Tally = Tally(table: Table, processed: nat)

  /** Number of indices below `n` that belong to `fails`. */
  function FailingBelow(n: nat, fails: set<nat>): (c: nat)
    ensures c <= n
  {
    if n == 0 then 0 else FailingBelow(n - 1, fails) + (if n - 1 in fails then 1 else 0)
  }

  /** The try/catch loop of the Pages-function handler as a left fold: entry `i` is written
      with the ON CONFLICT statement unless `i` is in `fails`, in which case it
      is skipped and not counted. */
  function ProcessIsolated(t: Table, es: seq<SitemapEntry>, domain: string, currentDate: string,
                           fails: set<nat>): (r: Tally)
    ensures r.processed + FailingBelow(|es|, fails) == |es|
    decreases |es|
  {
    if |es| == 0 then Tally(t, 0)
    else
      var i := |es| - 1;
      var prev := ProcessIsolated(t, es[..i], domain, currentDate, fails);
      if i in fails then prev
      else
        var e := es[i];
        var row := EntryRow(e, domain, currentDate);
        Tally(InsertOnConflict(prev.table, row, EffectiveLastModified(e.lastmod, currentDate)),
              prev.processed + 1)
  }

  /** `handleSitemapProcessing` of the Pages functions. The sitemap is fetched through
      `fetch`, the host name comes from `hostname` (None when `new URL` throws)
      and `currentDate` is the run's date. */
  method HandleSitemapProcessing(t: Table, sitemapUrl: string, hostname: string -> Option<string>,
                                 fetch: string -> Fetched, currentDate: string, fails: set<nat>)
    returns (r: Result<Tally, IngestError>)
    ensures hostname(sitemapUrl).None? <==> r.Failure?
    ensures r.Failure? ==> r.error == InvalidSitemapUrl(sitemapUrl)
    ensures r.Success? ==>
              r.value == ProcessIsolated(t, ParseSitemap(fetch, sitemapUrl),
                                         hostname(sitemapUrl).value, currentDate, fails)
    ensures r.Success? ==> r.value.processed <= |ParseSitemap(fetch, sitemapUrl)|
  {
    var host := hostname(sitemapUrl);
    if host.None? {
      return Failure(InvalidSitemapUrl(sitemapUrl));
    }
    var domain := host.value;
    var entries := ParseSitemap(fetch, sitemapUrl);
    var table := t;
    var processedCount := 0;
    var k := 0;
    while k < |entries|
      invariant k <= |entries|
      invariant Tally(table, processedCount) == ProcessIsolated(t, entries[..k], domain, currentDate, fails)
    {
      assert entries[..k + 1][..k] == entries[..k];
      if k !in fails {
        var e := entries[k];
        var row := EntryRow(e, domain, currentDate);
        table := InsertOnConflict(table, row, EffectiveLastModified(e.lastmod, currentDate));
        processedCount := processedCount + 1;
      }
      k := k + 1;
    }
    assert entries[..k] == entries;
    return Success(Tally(table, processedCount));
  }

  /** Entries with no failing index are all counted. */
  lemma ProcessedAllWithoutFailures(n: nat, fails: set<nat>)
    requires forall j :: 0 <= j < n ==> j !in fails
    ensures FailingBelow(n, fails) == 0
  {
    if n > 0 {
      ProcessedAllWithoutFailures(n - 1, fails);
    }
  }

  /** How many of the entries that were written carry location `u`. */
  function WrittenOccurrences(es: seq<SitemapEntry>, fails: set<nat>, u: string): (c: nat)
    ensures c <= |es|
    decreases |es|
  {
    if |es| == 0 then 0
    else
      var i := |es| - 1;
      WrittenOccurrences(es[..i], fails, u) + (if i !in fails && es[i].loc == u then 1 else 0)
  }

  /** The index of the last entry for `u` that was written, if any. */
  function LastWritten(es: seq<SitemapEntry>, fails: set<nat>, u: string): (r: Option<nat>)
    ensures r.None? <==> WrittenOccurrences(es, fails, u) == 0
    ensures r.Some? ==> r.value < |es| && r.value !in fails && es[r.value].loc == u
    ensures r.Some? ==> forall j :: r.value < j < |es| ==> j in fails || es[j].loc != u
    decreases |es|
  {
    if |es| == 0 then None
    else
      var i := |es| - 1;
      if i !in fails && es[i].loc == u then Some(i) else LastWritten(es[..i], fails, u)
  }

  /** What the isolating loop leaves for url `u`, given what it started with. */
  ghost predicate IngestedRow(t: Table, es: seq<SitemapEntry>, fails: set<nat>, domain: string,
                              currentDate: string, r: Table, u: string) {
    var k := WrittenOccurrences(es, fails, u);
    && (u in r <==> u in t || k > 0)
    && (u in t ==> r[u].runCount == t[u].runCount + k && SameIdentity(r[u], t[u]))
    && (u in t && k == 0 ==> r[u] == t[u])
    && (u !in t && k > 0 ==>
          r[u].runCount == k - 1 && r[u].firstAppeared == currentDate &&
          r[u].sitename == domain && r[u].url == u && r[u].modelName == ModelLabel(u, domain))
  }

  /** After the isolating loop a url that was written holds the `lastModified`
      of the last entry written for it. */
  ghost predicate IngestedLastModified(es: seq<SitemapEntry>, fails: set<nat>, currentDate: string,
                                       r: Table, u: string) {
    LastWritten(es, fails, u).Some? ==>
      u in r && r[u].lastModified == EffectiveLastModified(es[LastWritten(es, fails, u).value].lastmod, currentDate)
  }

  /** One more entry keeps `IngestedLastModified` for every url. */
  lemma LastModifiedStep(t: Table, es: seq<SitemapEntry>, fails: set<nat>, domain: string,
                         currentDate: string, u: string)
    requires |es| > 0
    requires IngestedLastModified(es[..|es| - 1], fails, currentDate,
                                  ProcessIsolated(t, es[..|es| - 1], domain, currentDate, fails).table, u)
    ensures IngestedLastModified(es, fails, currentDate,
                                 ProcessIsolated(t, es, domain, currentDate, fails).table, u)
  {
    var i := |es| - 1;
    var prev := ProcessIsolated(t, es[..i], domain, currentDate, fails).table;
    var r := ProcessIsolated(t, es, domain, currentDate, fails).table;
    if i !in fails {
      var row := EntryRow(es[i], domain, currentDate);
      var lm := EffectiveLastModified(es[i].lastmod, currentDate);
      assert r == InsertOnConflict(prev, row, lm);
      assert UpsertOf(prev, row, lm, r);
      if es[i].loc == u {
        assert LastWritten(es, fails, u) == Some(i);
        if u in prev {
          assert Bumped(prev[u], r[u], lm);
        } else {
          assert r[u] == row;
        }
      } else {
        assert LastWritten(es, fails, u) == LastWritten(es[..i], fails, u);
        if LastWritten(es, fails, u).Some? {
          assert es[..i][LastWritten(es, fails, u).value] == es[LastWritten(es, fails, u).value];
        }
      }
    } else {
      assert LastWritten(es, fails, u) == LastWritten(es[..i], fails, u);
      if LastWritten(es, fails, u).Some? {
        assert es[..i][LastWritten(es, fails, u).value] == es[LastWritten(es, fails, u).value];
      }
    }
  }

  /** One more entry keeps `IngestedRow` for every url. */
  lemma IngestedRowStep(t: Table, es: seq<SitemapEntry>, fails: set<nat>, domain: string,
                        currentDate: string, u: string)
    requires |es| > 0
    requires IngestedRow(t, es[..|es| - 1], fails, domain, currentDate,
                         ProcessIsolated(t, es[..|es| - 1], domain, currentDate, fails).table, u)
    ensures IngestedRow(t, es, fails, domain, currentDate,
                        ProcessIsolated(t, es, domain, currentDate, fails).table, u)
  {
    var i := |es| - 1;
    var prev := ProcessIsolated(t, es[..i], domain, currentDate, fails).table;
    var r := ProcessIsolated(t, es, domain, currentDate, fails).table;
    var k := WrittenOccurrences(es[..i], fails, u);
    assert WrittenOccurrences(es, fails, u) == k + (if i !in fails && es[i].loc == u then 1 else 0);
    if i !in fails {
      var row := EntryRow(es[i], domain, currentDate);
      var lm := EffectiveLastModified(es[i].lastmod, currentDate);
      assert r == InsertOnConflict(prev, row, lm);
      assert UpsertOf(prev, row, lm, r);
      if es[i].loc == u {
        if u in prev {
          assert Bumped(prev[u], r[u], lm);
        } else {
          assert r[u] == row;
        }
      } else {
        assert u in r <==> u in prev;
      }
    }
  }

  /** Every url's row after the isolating loop: a url already in the table
      gains one run per written occurrence and keeps its identity; a new url
      written k >= 1 times is created with the run's date and ends with
      `runCount == k - 1`; a url that is not written is untouched; a url that
      is written holds the `lastModified` of its last written entry. */
  lemma {:induction false} IngestedRows(t: Table, es: seq<SitemapEntry>, fails: set<nat>,
                                        domain: string, currentDate: string, u: string)
    ensures IngestedRow(t, es, fails, domain, currentDate,
                        ProcessIsolated(t, es, domain, currentDate, fails).table, u)
    ensures IngestedLastModified(es, fails, currentDate, ProcessIsolated(t, es, domain, currentDate, fails).table, u)
    decreases |es|
  {
    if |es| > 0 {
      IngestedRows(t, es[..|es| - 1], fails, domain, currentDate, u);
      IngestedRowStep(t, es, fails, domain, currentDate, u);
      LastModifiedStep(t, es, fails, domain, currentDate, u);
    }
  }

  /** Starting from an empty table with no failures, a url listed k times has
      one row with `runCount == k - 1`, and unlisted urls have none. */
  lemma FreshRunCount(es: seq<SitemapEntry>, domain: string, currentDate: string, u: string)
    ensures var r := ProcessIsolated(map[], es, domain, currentDate, {}).table;
            var k := WrittenOccurrences(es, {}, u);
            (u in r <==> k > 0) && (u in r ==> r[u].runCount == k - 1 && r[u].firstAppeared == currentDate)
  {
    IngestedRows(map[], es, {}, domain, currentDate, u);
  }

  /** The isolating loop keeps one row per url. */
  lemma {:induction false} ProcessIsolatedKeyedByUrl(t: Table, es: seq<SitemapEntry>, domain: string,
                                                     currentDate: string, fails: set<nat>)
    requires KeyedByUrl(t)
    ensures KeyedByUrl(ProcessIsolated(t, es, domain, currentDate, fails).table)
    decreases |es|
  {
    if |es| > 0 {
      var i := |es| - 1;
      ProcessIsolatedKeyedByUrl(t, es[..i], domain, currentDate, fails);
      if i !in fails {
        var prev := ProcessIsolated(t, es[..i], domain, currentDate, fails).table;
        var row := EntryRow(es[i], domain, currentDate);
        var lm := EffectiveLastModified(es[i].lastmod, currentDate);
        UpsertKeepsKeyedByUrl(prev, row, lm, InsertOnConflict(prev, row, lm));
      }
    }
  }

  /** The isolating loop only lets the table grow. */
  lemma {:induction false} ProcessIsolatedGrows(t: Table, es: seq<SitemapEntry>, domain: string,
                                                currentDate: string, fails: set<nat>)
    ensures Grows(t, ProcessIsolated(t, es, domain, currentDate, fails).table)
    decreases |es|
  {
    if |es| == 0 {
      GrowsReflexive(t);
    } else {
      var i := |es| - 1;
      ProcessIsolatedGrows(t, es[..i], domain, currentDate, fails);
      if i !in fails {
        var prev := ProcessIsolated(t, es[..i], domain, currentDate, fails).table;
        var row := EntryRow(es[i], domain, currentDate);
        var lm := EffectiveLastModified(es[i].lastmod, currentDate);
        UpsertGrows(prev, row, lm, InsertOnConflict(prev, row, lm));
        GrowsTransitive(t, prev, InsertOnConflict(prev, row, lm));
      }
    }
  }

  // ---------------------------------------------------------------------------
  // The script: the first failure aborts
  // ---------------------------------------------------------------------------

  /** Table after the script's loop, and the index of the entry whose write
      threw, if one did. The writes before it are not rolled back. */
  datatype Run = Run(table: Table, failedAt: Option<nat>)

  /** The script's loop as a left fold of `insertOrUpdateUrlInfo` that stops
      at the first failing entry. */
  function ProcessAborting(t: Table, es: seq<SitemapEntry>, domain: string, currentDate: string,
                           fails: set<nat>): (r: Run)
    ensures r.failedAt.Some? ==>
              r.failedAt.value < |es| && r.failedAt.value in fails &&
              forall j :: 0 <= j < r.failedAt.value ==> j !in fails
    ensures r.failedAt.None? ==> forall j :: 0 <= j < |es| ==> j !in fails
    decreases |es|
  {
    if |es| == 0 then Run(t, None)
    else
      var i := |es| - 1;
      var prev := ProcessAborting(t, es[..i], domain, currentDate, fails);
      if prev.failedAt.Some? then prev
      else if i in fails then Run(prev.table, Some(i))
      else Run(InsertOrUpdateUrlInfo(prev.table, EntryRow(es[i], domain, currentDate)).value, None)
  }

  /** `processSitemap` of the script: entries are written strictly in order
      and the loop returns at the first write that throws. */
  method ProcessSitemap(t: Table, entries: seq<SitemapEntry>, domain: string, currentDate: string,
                        fails: set<nat>)
    returns (r: Run)
    ensures r == ProcessAborting(t, entries, domain, currentDate, fails)
    ensures r.failedAt.None? <==> forall j :: 0 <= j < |entries| ==> j !in fails
  {
    var table := t;
    var k := 0;
    while k < |entries|
      invariant k <= |entries|
      invariant Run(table, None) == ProcessAborting(t, entries[..k], domain, currentDate, fails)
    {
      assert entries[..k + 1][..k] == entries[..k];
      if k in fails {
        AbortingStaysAborted(t, entries, domain, currentDate, fails, k + 1);
        return Run(table, Some(k));
      }
      table := InsertOrUpdateUrlInfo(table, EntryRow(entries[k], domain, currentDate)).value;
      k := k + 1;
    }
    assert entries[..k] == entries;
    return Run(table, None);
  }

  /** Once the fold has aborted on a prefix, the rest of the entries change
      nothing. */
  lemma {:induction false} AbortingStaysAborted(t: Table, es: seq<SitemapEntry>, domain: string,
                                                currentDate: string, fails: set<nat>, n: nat)
    requires n <= |es|
    requires ProcessAborting(t, es[..n], domain, currentDate, fails).failedAt.Some?
    ensures ProcessAborting(t, es, domain, currentDate, fails) ==
            ProcessAborting(t, es[..n], domain, currentDate, fails)
    decreases |es| - n
  {
    if n < |es| {
      assert es[..n + 1][..n] == es[..n];
      AbortingStaysAborted(t, es, domain, currentDate, fails, n + 1);
    } else {
      assert es[..n] == es;
    }
  }

  /** `env.SITEMAP_URL || 'https://replicate.com/sitemap-models.xml'`, where
      `None` is an unset variable. */
  function ConfiguredSitemapUrl(sitemapUrl: Option<string>): (r: string)
    ensures r != ""
    ensures sitemapUrl.Some? && sitemapUrl.value != "" ==> r == sitemapUrl.value
    ensures sitemapUrl.None? || sitemapUrl.value == "" ==> r == DefaultSitemapUrl
  {
    if sitemapUrl.Some? && sitemapUrl.value != "" then sitemapUrl.value else DefaultSitemapUrl
  }

  /** `handleSitemapProcessing` of the script: pick the URL, take its host as
      the domain, then run `processSitemap`. It reports no count. */
  function HandleScriptProcessing(t: Table, sitemapUrl: Option<string>, hostname: string -> Option<string>,
                                  fetch: string -> Fetched, currentDate: string, fails: set<nat>)
    : (r: Result<Run, IngestError>)
    ensures r.Failure? <==> hostname(ConfiguredSitemapUrl(sitemapUrl)).None?
    ensures r.Failure? ==> r.error == InvalidSitemapUrl(ConfiguredSitemapUrl(sitemapUrl))
    ensures r.Success? ==>
              var url := ConfiguredSitemapUrl(sitemapUrl);
              r.value.failedAt.None? <==> forall j :: 0 <= j < |ParseSitemap(fetch, url)| ==> j !in fails
  {
    var url := ConfiguredSitemapUrl(sitemapUrl);
    match hostname(url)
    case None => Failure(InvalidSitemapUrl(url))
    case Some(domain) => Success(ProcessAborting(t, ParseSitemap(fetch, url), domain, currentDate, fails))
  }

  // ---------------------------------------------------------------------------
  // The two variants side by side
  // ---------------------------------------------------------------------------

  /** Without failures the script's loop and the isolating loop leave the
      same table, and the isolating loop counts every entry. */
  lemma {:induction false} VariantsAgree(t: Table, es: seq<SitemapEntry>, domain: string,
                                         currentDate: string, fails: set<nat>)
    requires forall j :: 0 <= j < |es| ==> j !in fails
    ensures ProcessAborting(t, es, domain, currentDate, fails) ==
            Run(ProcessIsolated(t, es, domain, currentDate, fails).table, None)
    ensures ProcessIsolated(t, es, domain, currentDate, fails).processed == |es|
    decreases |es|
  {
    ProcessedAllWithoutFailures(|es|, fails);
    if |es| > 0 {
      var i := |es| - 1;
      VariantsAgree(t, es[..i], domain, currentDate, fails);
      var prev := ProcessIsolated(t, es[..i], domain, currentDate, fails).table;
      UpsertsAgree(prev, EntryRow(es[i], domain, currentDate));
    }
  }
  /** The table the script's handler leaves, for the URL it picks and that
      URL's host as the domain. Without a failing write it is the table the
      isolating loop leaves. Otherwise the failure is reported at the first
      failing entry `i`, and the table is what the entries before `i` wrote:
      nothing is rolled back. */
  lemma ScriptHandlerTable(t: Table, sitemapUrl: Option<string>, hostname: string -> Option<string>,
                           fetch: string -> Fetched, currentDate: string, fails: set<nat>)
    ensures var url := ConfiguredSitemapUrl(sitemapUrl);
            var r := HandleScriptProcessing(t, sitemapUrl, hostname, fetch, currentDate, fails);
            r.Success? && r.value.failedAt.None? ==>
              r.value.table == ProcessIsolated(t, ParseSitemap(fetch, url), hostname(url).value,
                                               currentDate, fails).table
    ensures var url := ConfiguredSitemapUrl(sitemapUrl);
            var r := HandleScriptProcessing(t, sitemapUrl, hostname, fetch, currentDate, fails);
            r.Success? && r.value.failedAt.Some? ==>
              var i := r.value.failedAt.value;
              && i < |ParseSitemap(fetch, url)| && i in fails
              && (forall j :: 0 <= j < i ==> j !in fails)
              && r.value.table == ProcessIsolated(t, ParseSitemap(fetch, url)[..i], hostname(url).value,
                                                  currentDate, fails).table
  {
    var url := ConfiguredSitemapUrl(sitemapUrl);
    if hostname(url).Some? {
      var es := ParseSitemap(fetch, url);
      var domain := hostname(url).value;
      var run := ProcessAborting(t, es, domain, currentDate, fails);
      if run.failedAt.Some? {
        AbortKeepsPrefix(t, es, domain, currentDate, fails, run.failedAt.value);
      } else {
        VariantsAgree(t, es, domain, currentDate, fails);
      }
    }
  }

  /** When entry `i` is the first failing one, the script leaves exactly the
      table the failure-free prefix before it produces, and nothing after `i`
      is written. */
  lemma {:induction false} AbortKeepsPrefix(t: Table, es: seq<SitemapEntry>, domain: string,
                                            currentDate: string, fails: set<nat>, i: nat)
    requires i < |es| && i in fails
    requires forall j :: 0 <= j < i ==> j !in fails
    ensures ProcessAborting(t, es, domain, currentDate, fails) ==
            Run(ProcessIsolated(t, es[..i], domain, currentDate, fails).table, Some(i))
  {
    var p := es[..i + 1];
    assert p[..i] == es[..i];
    VariantsAgree(t, es[..i], domain, currentDate, fails);
    assert ProcessAborting(t, p, domain, currentDate, fails).failedAt == Some(i);
    AbortingStaysAborted(t, es, domain, currentDate, fails, i + 1);
  }

  /** The script's loop only lets the table grow, whether or not it aborts. */
  lemma ProcessAbortingGrows(t: Table, es: seq<SitemapEntry>, domain: string,
                             currentDate: string, fails: set<nat>)
    ensures Grows(t, ProcessAborting(t, es, domain, currentDate, fails).table)
  {
    var r := ProcessAborting(t, es, domain, currentDate, fails);
    if r.failedAt.Some? {
      var i := r.failedAt.value;
      AbortKeepsPrefix(t, es, domain, currentDate, fails, i);
      ProcessIsolatedGrows(t, es[..i], domain, currentDate, fails);
    } else {
      VariantsAgree(t, es, domain, currentDate, fails);
      ProcessIsolatedGrows(t, es, domain, currentDate, fails);
    }
  }
}

=== FILE: report.dfy ===
/** The report script: scrape every model page listed in the sitemap, keep
    the pages that could be read, sort them by call count and render a
    Markdown report. Page scraping, the clock and the file system are inputs
    and outputs of the model rather than effects. */
module Report {
  import opened Wrappers
  import opened Strings
  import opened Sorting
  import opened Aggregates
  import opened SitemapParser

  /** What `processModelUrl` extracts from a model page. `parseInt` of the
      page's digits, or 0, so the count is never negative. */
  datatype ModelData = ModelData(url: string, name: string, callCount: nat)

  /** The script always reads this sitemap. */
  const ReportSitemapUrl: string := "https://replicate.com/sitemap-models.xml"

  // ---------------------------------------------------------------------------
  // Collecting
  // ---------------------------------------------------------------------------

  /** The collect loop as a function: the pages of `entries`, in order, that
      `process` could read (`if (data) modelData.push(data)`). */
  function Collect(entries: seq<SitemapEntry>, process: string -> Option<ModelData>): (r: seq<ModelData>)
    ensures |r| == CountWhere(entries, (e: SitemapEntry) => process(e.loc).Some?)
    decreases |entries|
  {
    if |entries| == 0 then []
    else
      var rest := Collect(entries[1..], process);
      match process(entries[0].loc)
      case Some(d) => [d] + rest
      case None => rest
  }

  /** Collecting distributes over concatenation: the results keep the order
      of the entries they came from. */
  lemma {:induction false} CollectConcat(a: seq<SitemapEntry>, b: seq<SitemapEntry>,
                                         process: string -> Option<ModelData>)
    ensures Collect(a + b, process) == Collect(a, process) + Collect(b, process)
    decreases |a|
  {
    if |a| == 0 {
      assert a + b == b;
    } else {
      assert (a + b)[0] == a[0] && (a + b)[1..] == a[1..] + b;
      CollectConcat(a[1..], b, process);
    }
  }

  /** Everything collected is what `process` returned for some entry, and
      every readable page is collected. */
  lemma {:induction false} CollectMembers(entries: seq<SitemapEntry>, process: string -> Option<ModelData>)
    ensures forall d :: d in Collect(entries, process) ==>
              exists i :: 0 <= i < |entries| && process(entries[i].loc) == Some(d)
    ensures forall i :: 0 <= i < |entries| && process(entries[i].loc).Some? ==>
              process(entries[i].loc).value in Collect(entries, process)
    decreases |entries|
  {
    if |entries| > 0 {
      CollectMembers(entries[1..], process);
      assert forall i :: 1 <= i < |entries| ==> entries[i] == entries[1..][i - 1];
    }
  }

  /** One entry gives its page's data, or nothing. */
  lemma CollectOne(e: SitemapEntry, process: string -> Option<ModelData>)
    ensures Collect([e], process) == if process(e.loc).Some? then [process(e.loc).value] else []
  {
    assert [e][1..] == [];
  }

  /** The loop of `analyzeReplicate` that pushes each readable page. */
  method CollectModelData(entries: seq<SitemapEntry>, process: string -> Option<ModelData>)
    returns (modelData: seq<ModelData>)
    ensures modelData == Collect(entries, process)
  {
    modelData := [];
    var k := 0;
    while k < |entries|
      invariant k <= |entries|
      invariant modelData == Collect(entries[..k], process)
    {
      var data := process(entries[k].loc);
      CollectConcat(entries[..k], [entries[k]], process);
      CollectOne(entries[k], process);
      assert entries[..k + 1] == entries[..k] + [entries[k]];
      if data.Some? {
        modelData := modelData + [data.value];
      }
      k := k + 1;
    }
    assert entries[..k] == entries;
  }

  // ---------------------------------------------------------------------------
  // Sorting and totals
  // ---------------------------------------------------------------------------

  /** `a` may come before `b` under the comparator `b.callCount - a.callCount`. */
  predicate CallsAtLeast(a: ModelData, b: ModelData) {
    a.callCount >= b.callCount
  }

  /** `modelData.sort((a, b) => b.callCount - a.callCount)`, a stable sort. */
  function SortByCalls(data: seq<ModelData>): (r: seq<ModelData>)
    ensures multiset(r) == multiset(data)
    ensures SortedBy(r, CallsAtLeast)
  {
    SortBySorted(data, CallsAtLeast);
    SortBy(data, CallsAtLeast)
  }

  /** After sorting, a model listed earlier has at least as many calls as any
      model listed later. */
  lemma SortByCallsOrdered(data: seq<ModelData>, i: nat, j: nat)
    requires i < j < |data|
    ensures SortByCalls(data)[i].callCount >= SortByCalls(data)[j].callCount
  {
    var r := SortByCalls(data);
    assert |r| == |multiset(r)| == |data|;
    SortedPairwise(r, CallsAtLeast, i, j);
  }

  /** `modelData.reduce((sum, model) => sum + model.callCount, 0)`: a left fold. */
  function TotalCalls(data: seq<ModelData>): (t: nat)
    ensures forall i :: 0 <= i < |data| ==> data[i].callCount <= t
    decreases |data|
  {
    if |data| == 0 then 0
    else
      var n := |data| - 1;
      assert forall i :: 0 <= i < n ==> data[..n][i] == data[i];
      TotalCalls(data[..n]) + data[n].callCount
  }

  function CallsOf(d: ModelData): int {
    d.callCount
  }

  /** The left fold adds up the same calls as the sum from the front. */
  lemma {:induction false} TotalCallsIsSum(data: seq<ModelData>)
    ensures TotalCalls(data) == SumBy(data, CallsOf)
    decreases |data|
  {
    if |data| > 0 {
      var n := |data| - 1;
      TotalCallsIsSum(data[..n]);
      SumByConcat(data[..n], [data[n]], CallsOf);
      assert data[..n] + [data[n]] == data;
    }
  }

  /** Sorting does not change the total number of calls. */
  lemma SortKeepsTotal(data: seq<ModelData>)
    ensures TotalCalls(SortByCalls(data)) == TotalCalls(data)
  {
    TotalCallsIsSum(data);
    TotalCallsIsSum(SortByCalls(data));
    SumByPermutation(data, SortByCalls(data), CallsOf);
  }

  // ---------------------------------------------------------------------------
  // Rendering
  // ---------------------------------------------------------------------------

  /** One table row, without its line break. */
  function RowLine(rank: nat, m: ModelData): string {
    "| " + NatToDecimal(rank) + " | " + m.name + " | " + NatToDecimal(m.callCount) + " | " + m.url + " |"
  }

  /** The rows the `forEach` appends, ranked from `index + 1` on. */
  function RenderRows(ms: seq<ModelData>, index: nat): string
    decreases |ms|
  {
    if |ms| == 0 then ""
    else RowLine(index + 1, ms[0]) + "\n" + RenderRows(ms[1..], index + 1)
  }

  const Title: string := "# Replicate Model Analysis Report"
  const TopHeading: string := "## Top 10 Models by Call Count"
  const TableHead: string := "| Rank | Model | Calls | URL |"
  const TableRule: string := "|------|-------|-------|-----|"

  /** The text `generateReport` builds before the table rows, one `+=` at a
      time. */
  function Header(date: string, totalModels: nat, totalCalls: nat): string {
    Title + "\n\n"
    + ("Date: " + date + "\n\n")
    + ("Total Models: " + NatToDecimal(totalModels) + "\n")
    + ("Total Calls: " + NatToDecimal(totalCalls) + "\n\n")
    + (TopHeading + "\n\n")
    + (TableHead + "\n")
    + (TableRule + "\n")
  }

  /** `generateReport`; `date` is the day the report is dated. */
  function GenerateReport(modelData: seq<ModelData>, date: string): (r: string)
    ensures |r| > 0 && r[|r| - 1] == '\n'
  {
    var h := Header(date, |modelData|, TotalCalls(modelData));
    var rows := RenderRows(Take(modelData, 10), 0);
    RenderRowsEndWithBreak(Take(modelData, 10), 0);
    assert h[|h| - 1] == '\n';
    assert (h + rows)[|h + rows| - 1] == if |rows| == 0 then h[|h| - 1] else rows[|rows| - 1];
    h + rows
  }

  /** The rendered rows are empty or end with a line break. */
  lemma {:induction false} RenderRowsEndWithBreak(ms: seq<ModelData>, index: nat)
    ensures var s := RenderRows(ms, index); |s| == 0 || s[|s| - 1] == '\n'
    decreases |ms|
  {
    if |ms| > 0 {
      RenderRowsEndWithBreak(ms[1..], index + 1);
    }
  }

  /** `analyzeReplicate`: the report and the name of the file it is saved to.
      The file name and the report's date line come from two separate reads
      of the clock. */
  function AnalyzeReplicate(fetch: string -> Fetched, process: string -> Option<ModelData>,
                            reportDate: string, fileDate: string): (r: (string, string))
    ensures r.0 == "report-" + fileDate + ".md"
  {
    var entries := ParseSitemap(fetch, ReportSitemapUrl);
    var modelData := SortByCalls(Collect(entries, process));
    ("report-" + fileDate + ".md", GenerateReport(modelData, reportDate))
  }

  // ---------------------------------------------------------------------------
  // Reading the report back line by line
  // ---------------------------------------------------------------------------

  /** Lines joined, each ended by a line break. */
  function Unlines(ls: seq<string>): string
    decreases |ls|
  {
    if |ls| == 0 then "" else ls[0] + "\n" + Unlines(ls[1..])
  }

  /** A text cut at every line break; the piece after the last break is the
      last element. */
  function Lines(s: string): (ls: seq<string>)
    ensures |ls| > 0
    decreases |s|
  {
    if |s| == 0 then [""]
    else
      var rest := Lines(s[1..]);
      if s[0] == '\n' then [""] + rest else [[s[0]] + rest[0]] + rest[1..]
  }

  predicate NoLineBreak(s: string) {
    '\n' !in s
  }

  lemma {:induction false} LinesOfLine(l: string, rest: string)
    requires NoLineBreak(l)
    ensures Lines(l + "\n" + rest) == [l] + Lines(rest)
    decreases |l|
  {
    if |l| == 0 {
      assert l + "\n" + rest == ['\n'] + rest;
    } else {
      assert (l + "\n" + rest)[1..] == l[1..] + "\n" + rest;
      assert l[0] != '\n';
      LinesOfLine(l[1..], rest);
      assert [l[0]] + l[1..] == l;
    }
  }

  /** Cutting joined lines gives them back, followed by the empty piece after
      the final line break. */
  lemma {:induction false} LinesUnlines(ls: seq<string>)
    requires AllLines(ls)
    ensures Lines(Unlines(ls)) == ls + [""]
    decreases |ls|
  {
    if |ls| > 0 {
      LinesOfLine(ls[0], Unlines(ls[1..]));
      LinesUnlines(ls[1..]);
      assert ls == [ls[0]] + ls[1..];
    }
  }

  lemma {:induction false} UnlinesConcat(a: seq<string>, b: seq<string>)
    ensures Unlines(a + b) == Unlines(a) + Unlines(b)
    decreases |a|
  {
    if |a| == 0 {
      assert a + b == b;
    } else {
      assert (a + b)[0] == a[0] && (a + b)[1..] == a[1..] + b;
      UnlinesConcat(a[1..], b);
    }
  }

  /** The table rows as lines, ranked from `index + 1` on. */
  function RowLines(ms: seq<ModelData>, index: nat): (ls: seq<string>)
    ensures |ls| == |ms|
  {
    seq(|ms|, k requires 0 <= k < |ms| => RowLine(index + k + 1, ms[k]))
  }

  lemma {:induction false} RenderRowsLines(ms: seq<ModelData>, index: nat)
    ensures RenderRows(ms, index) == Unlines(RowLines(ms, index))
    decreases |ms|
  {
    if |ms| > 0 {
      RenderRowsLines(ms[1..], index + 1);
      assert RowLines(ms, index)[1..] == RowLines(ms[1..], index + 1);
    }
  }

  /** The fixed lines before the table. */
  function HeaderLines(date: string, totalModels: nat, totalCalls: nat): seq<string> {
    [ Title, "",
      "Date: " + date, "",
      "Total Models: " + NatToDecimal(totalModels),
      "Total Calls: " + NatToDecimal(totalCalls), "",
      TopHeading, "",
      TableHead,
      TableRule ]
  }

  lemma UnlinesSnoc(ls: seq<string>, l: string)
    ensures Unlines(ls + [l]) == Unlines(ls) + (l + "\n")
  {
    UnlinesConcat(ls, [l]);
    assert Unlines([l]) == l + "\n" + Unlines([]);
  }

  /** A line followed by an empty line is the line with two breaks. */
  lemma TwoBreaks(x: string, y: string)
    ensures x + (y + "\n") + ("" + "\n") == x + (y + "\n\n")
  {
  }

  /** One more line of `h`, joined. */
  lemma UnlinesPrefixStep(h: seq<string>, k: nat)
    requires k < |h|
    ensures Unlines(h[..k + 1]) == Unlines(h[..k]) + (h[k] + "\n")
  {
    assert h[..k + 1] == h[..k] + [h[k]];
    UnlinesSnoc(h[..k], h[k]);
  }

  /** The header is the header lines, each ended by a line break. */
  lemma HeaderText(date: string, totalModels: nat, totalCalls: nat)
    ensures Header(date, totalModels, totalCalls) == Unlines(HeaderLines(date, totalModels, totalCalls))
  {
    var h := HeaderLines(date, totalModels, totalCalls);
    assert Unlines(h[..0]) == "";
    UnlinesPrefixStep(h, 0);
    UnlinesPrefixStep(h, 1);
    var r0 := Title + "\n\n";
    assert Unlines(h[..2]) == r0 by {
      TwoBreaks("", h[0]);
    }
    UnlinesPrefixStep(h, 2);
    UnlinesPrefixStep(h, 3);
    var r1 := r0 + ("Date: " + date + "\n\n");
    assert Unlines(h[..4]) == r1 by {
      assert h[3] == "";
      TwoBreaks(r0, h[2]);
    }
    UnlinesPrefixStep(h, 4);
    var r2 := r1 + ("Total Models: " + NatToDecimal(totalModels) + "\n");
    assert Unlines(h[..5]) == r2;
    UnlinesPrefixStep(h, 5);
    UnlinesPrefixStep(h, 6);
    var r3 := r2 + ("Total Calls: " + NatToDecimal(totalCalls) + "\n\n");
    assert Unlines(h[..7]) == r3 by {
      assert h[6] == "";
      TwoBreaks(r2, h[5]);
    }
    UnlinesPrefixStep(h, 7);
    UnlinesPrefixStep(h, 8);
    var r4 := r3 + (TopHeading + "\n\n");
    assert Unlines(h[..9]) == r4 by {
      assert h[8] == "";
      TwoBreaks(r3, h[7]);
    }
    UnlinesPrefixStep(h, 9);
    var r5 := r4 + (TableHead + "\n");
    assert Unlines(h[..10]) == r5;
    UnlinesPrefixStep(h, 10);
    var r6 := r5 + (TableRule + "\n");
    assert Unlines(h[..11]) == r6;
    assert h[..11] == h;
  }

  /** Whatever the text holds, the report is the header lines followed by
      the rows of the first ten models, ranked 1, 2, …, each ended by a line
      break. */
  lemma ReportText(modelData: seq<ModelData>, date: string)
    ensures GenerateReport(modelData, date) ==
            Unlines(HeaderLines(date, |modelData|, TotalCalls(modelData)) + RowLines(Take(modelData, 10), 0))
  {
    HeaderText(date, |modelData|, TotalCalls(modelData));
    RenderRowsLines(Take(modelData, 10), 0);
    UnlinesConcat(HeaderLines(date, |modelData|, TotalCalls(modelData)), RowLines(Take(modelData, 10), 0));
  }

  /** Line by line, the report is the header, the title, date and totals
      included, followed by one ranked row per listed model: at most ten, in
      list order, ranked 1, 2, … — provided no date, name or URL holds a line
      break. */
  lemma ReportLines(modelData: seq<ModelData>, date: string)
    requires NoLineBreak(date)
    requires forall i :: 0 <= i < |modelData| ==> NoLineBreak(modelData[i].name) && NoLineBreak(modelData[i].url)
    ensures Lines(GenerateReport(modelData, date)) ==
            HeaderLines(date, |modelData|, TotalCalls(modelData)) + RowLines(Take(modelData, 10), 0) + [""]
  {
    var top := Take(modelData, 10);
    assert forall i :: 0 <= i < |top| ==> top[i] == modelData[i];
    HeaderAndRowsLines(date, |modelData|, TotalCalls(modelData), top);
  }

  /** The header's lines followed by the rows' lines. */
  lemma HeaderAndRowsLines(date: string, totalModels: nat, totalCalls: nat, top: seq<ModelData>)
    requires NoLineBreak(date)
    requires forall i :: 0 <= i < |top| ==> NoLineBreak(top[i].name) && NoLineBreak(top[i].url)
    ensures Lines(Header(date, totalModels, totalCalls) + RenderRows(top, 0)) ==
            HeaderLines(date, totalModels, totalCalls) + RowLines(top, 0) + [""]
  {
    HeaderText(date, totalModels, totalCalls);
    RenderRowsLines(top, 0);
    HeaderHasNoLineBreak(date, totalModels, totalCalls);
    RowsHaveNoLineBreak(top, 0);
    JoinedLines(HeaderLines(date, totalModels, totalCalls), RowLines(top, 0),
                Header(date, totalModels, totalCalls), RenderRows(top, 0));
  }

  /** Two blocks of joined lines, cut again, give both blocks' lines. */
  lemma JoinedLines(a: seq<string>, b: seq<string>, x: string, y: string)
    requires AllLines(a) && AllLines(b)
    requires x == Unlines(a) && y == Unlines(b)
    ensures Lines(x + y) == a + b + [""]
  {
    UnlinesConcat(a, b);
    AllLinesConcat(a, b);
    LinesUnlines(a + b);
  }

  predicate AllLines(ls: seq<string>) {
    forall i :: 0 <= i < |ls| ==> NoLineBreak(ls[i])
  }

  lemma AllLinesConcat(a: seq<string>, b: seq<string>)
    requires AllLines(a) && AllLines(b)
    ensures AllLines(a + b)
  {
    forall i | 0 <= i < |a + b|
      ensures NoLineBreak((a + b)[i])
    {
      if i >= |a| {
        assert (a + b)[i] == b[i - |a|];
      }
    }
  }

  lemma HeaderHasNoLineBreak(date: string, totalModels: nat, totalCalls: nat)
    requires NoLineBreak(date)
    ensures AllLines(HeaderLines(date, totalModels, totalCalls))
  {
    var h := HeaderLines(date, totalModels, totalCalls);
    DecimalHasNoLineBreak(totalModels);
    DecimalHasNoLineBreak(totalCalls);
    HeadingsHaveNoLineBreak();
    TableHeadHasNoLineBreak();
    forall i | 0 <= i < |h|
      ensures NoLineBreak(h[i])
    {
      if i == 2 {
        assert h[i] == "Date: " + date;
      } else if i == 4 {
        assert h[i] == "Total Models: " + NatToDecimal(totalModels);
      } else if i == 5 {
        assert h[i] == "Total Calls: " + NatToDecimal(totalCalls);
      }
    }
  }

  lemma HeadingsHaveNoLineBreak()
    ensures NoLineBreak(Title) && NoLineBreak(TopHeading)
  {
  }

  lemma TableHeadHasNoLineBreak()
    ensures NoLineBreak(TableHead) && NoLineBreak(TableRule)
  {
  }

  lemma RowsHaveNoLineBreak(ms: seq<ModelData>, index: nat)
    requires forall i :: 0 <= i < |ms| ==> NoLineBreak(ms[i].name) && NoLineBreak(ms[i].url)
    ensures AllLines(RowLines(ms, index))
  {
    forall k | 0 <= k < |ms|
      ensures NoLineBreak(RowLines(ms, index)[k])
    {
      RowHasNoLineBreak(ms[k], index + k + 1);
    }
  }

  lemma DecimalHasNoLineBreak(n: nat)
    ensures NoLineBreak(NatToDecimal(n))
  {
    var d := NatToDecimal(n);
    forall i | 0 <= i < |d|
      ensures d[i] != '\n'
    {
      assert IsDigit(d[i]);
    }
  }

  lemma RowHasNoLineBreak(m: ModelData, rank: nat)
    requires NoLineBreak(m.name) && NoLineBreak(m.url)
    ensures NoLineBreak(RowLine(rank, m))
  {
    DecimalHasNoLineBreak(rank);
    DecimalHasNoLineBreak(m.callCount);
  }

  /** The report's table holds min(10, n) rows: all twelve fixed lines come
      first, then the rows, then nothing after the final line break. */
  lemma ReportRowCount(modelData: seq<ModelData>, date: string)
    requires NoLineBreak(date)
    requires forall i :: 0 <= i < |modelData| ==> NoLineBreak(modelData[i].name) && NoLineBreak(modelData[i].url)
    ensures |Lines(GenerateReport(modelData, date))| == 12 + (if |modelData| < 10 then |modelData| else 10)
    ensures forall k :: 0 <= k < 10 && k < |modelData| ==>
              Lines(GenerateReport(modelData, date))[11 + k] == RowLine(k + 1, modelData[k])
  {
    ReportLines(modelData, date);
  }
}

=== FILE: sitemap_parser.dfy ===
/** The sitemap scanner of utils/sitemapParser.ts.

    The source runs the global regular expression

      <url>\s*<loc>(.*?)</loc>\s*(?:<lastmod>(.*?)</lastmod>)?\s*</url>

    with `exec` in a loop over the response body. This module states that
    regular expression's matching as functions over the text that follows the
    current position, in the order ECMAScript backtracking tries alternatives:

    - every `\s*` is followed by a token that starts with `<`, so only its
      longest run can lead to a match;
    - a lazy `(.*?)` takes the smallest length, over characters that are not
      line terminators, for which the rest of the pattern matches;
    - the optional lastmod group is tried before skipping it.

    After a match the next search resumes where the match ended; when no match
    is left the loop ends. */
module SitemapParser {
  import opened Wrappers

  datatype SitemapEntry = SitemapEntry(loc: string, lastmod: string)

  /** The outcome of `fetch(url)` followed by `response.text()`: the request
      may throw, reading the body may throw, or the body arrives together with
      an HTTP status the parser never looks at. */
  datatype Fetched = FetchFailed | BodyUnreadable(status: int) | Body(status: int, text: string)

  // ---------------------------------------------------------------------------
  // Character classes of ECMAScript regular expressions
  // ---------------------------------------------------------------------------

  /** Characters `.` does not match. */
  predicate IsLineTerminator(c: char) {
    c == '\n' || c == '\r' || c == '\U{2028}' || c == '\U{2029}'
  }

  /** Characters `\s` matches: WhiteSpace (tab, vertical tab, form feed, the
      byte order mark and the space separators) and the line terminators. */
  predicate IsRegexSpace(c: char) {
    || c == '\t' || c == '\U{B}' || c == '\U{C}' || c == ' ' || c == '\U{A0}'
    || c == '\U{1680}' || ('\U{2000}' <= c <= '\U{200A}') || c == '\U{202F}'
    || c == '\U{205F}' || c == '\U{3000}' || c == '\U{FEFF}'
    || IsLineTerminator(c)
  }

  predicate NoLineTerminator(s: string) {
    forall i {:trigger IsLineTerminator(s[i])} :: 0 <= i < |s| ==> !IsLineTerminator(s[i])
  }

  predicate AllSpace(s: string) {
    forall i {:trigger IsRegexSpace(s[i])} :: 0 <= i < |s| ==> IsRegexSpace(s[i])
  }

  // ---------------------------------------------------------------------------
  // One match, anchored at the start of the text
  // ---------------------------------------------------------------------------

  /** Length of the longest run of `\s` at the start of `s`. */
  function SkipSpace(s: string): (n: nat)
    ensures n <= |s|
    ensures AllSpace(s[..n])
    ensures n < |s| ==> !IsRegexSpace(s[n])
    decreases |s|
  {
    if |s| > 0 && IsRegexSpace(s[0]) then
      var n := 1 + SkipSpace(s[1..]);
      assert s[..n] == [s[0]] + s[1..][..n - 1];
      n
    else 0
  }

  /** `\s*</url>` at the start of `s`: the length it spans. */
  function CloseUrl(s: string): (r: Option<nat>)
    ensures r.Some? ==> 6 <= r.value <= |s|
  {
    var w := SkipSpace(s);
    if "</url>" <= s[w..] then Some(w + 6) else None
  }

  /** `(.*?)</lastmod>\s*</url>` on the text after `<lastmod>`, trying capture
      lengths `k`, `k + 1`, … : the capture and the length spanned. */
  function LazyLastmod(s: string, k: nat): (r: Option<(string, nat)>)
    requires k <= |s|
    requires NoLineTerminator(s[..k])
    ensures r.Some? ==> |r.value.0| + 16 <= r.value.1 <= |s|
    decreases |s| - k
  {
    if "</lastmod>" <= s[k..] && CloseUrl(s[k + 10..]).Some? then
      Some((s[..k], k + 10 + CloseUrl(s[k + 10..]).value))
    else if k < |s| && !IsLineTerminator(s[k]) then
      assert s[..k + 1] == s[..k] + [s[k]];
      LazyLastmod(s, k + 1)
    else
      None
  }

  /** `\s*(?:<lastmod>(.*?)</lastmod>)?\s*</url>` on the text after `</loc>`:
      the lastmod capture ("" when the group takes no part) and the length
      spanned. */
  function Tail(s: string): (r: Option<(string, nat)>)
    ensures r.Some? ==> 6 <= r.value.1 <= |s|
  {
    var w := SkipSpace(s);
    if "<lastmod>" <= s[w..] then
      match LazyLastmod(s[w + 9..], 0)
      case None => None
      case Some((m, n)) => Some((m, w + 9 + n))
    else if "</url>" <= s[w..] then
      Some(("", w + 6))
    else
      None
  }

  /** `(.*?)</loc>` followed by `Tail` on the text after `<loc>`, trying
      capture lengths `k`, `k + 1`, … */
  function LazyLoc(s: string, k: nat): (r: Option<(SitemapEntry, nat)>)
    requires k <= |s|
    requires NoLineTerminator(s[..k])
    ensures r.Some? ==> |r.value.0.loc| + 12 <= r.value.1 <= |s|
    decreases |s| - k
  {
    if "</loc>" <= s[k..] && Tail(s[k + 6..]).Some? then
      var t := Tail(s[k + 6..]).value;
      Some((SitemapEntry(s[..k], t.0), k + 6 + t.1))
    else if k < |s| && !IsLineTerminator(s[k]) then
      assert s[..k + 1] == s[..k] + [s[k]];
      LazyLoc(s, k + 1)
    else
      None
  }

  /** The match of the whole pattern that starts at the first character of
      `s`, if there is one: the entry it yields and its length. */
  function MatchAt(s: string): (r: Option<(SitemapEntry, nat)>)
    ensures r.Some? ==> 22 <= r.value.1 <= |s|
  {
    if "<url>" <= s then
      var w := 5 + SkipSpace(s[5..]);
      if "<loc>" <= s[w..] then
        match LazyLoc(s[w + 5..], 0)
        case None => None
        case Some((e, n)) => Some((e, w + 5 + n))
      else
        None
    else
      None
  }

  lemma SubSlice(s: string, d: nat, a: nat, b: nat)
    requires a <= b && d + b <= |s|
    ensures s[d..][a..b] == s[d + a..d + b]
  {
  }

  /** A tag found at position `d` is the slice of the text it covers. */
  lemma PrefixSlice(s: string, d: nat, tag: string)
    requires d <= |s| && tag <= s[d..]
    ensures d + |tag| <= |s| && s[d..d + |tag|] == tag
  {
  }

  /** What a match of `\s*</url>` spans: it ends with the closing tag. */
  lemma CloseUrlShape(s: string)
    requires CloseUrl(s).Some?
    ensures s[CloseUrl(s).value - 6..CloseUrl(s).value] == "</url>"
  {
    PrefixSlice(s, SkipSpace(s), "</url>");
  }

  /** The lazy capture grows by one character that is not a line terminator. */
  lemma NoLineExtend(s: string, k: nat)
    requires k < |s| && NoLineTerminator(s[..k]) && !IsLineTerminator(s[k])
    ensures NoLineTerminator(s[..k + 1])
  {
    assert s[..k + 1] == s[..k] + [s[k]];
  }

  /** Where `</lastmod>\s*</url>` does not follow, the lazy lastmod capture
      tries one character more. */
  lemma LazyLastmodNext(s: string, k: nat)
    requires k <= |s| && NoLineTerminator(s[..k])
    requires LazyLastmod(s, k).Some?
    requires !("</lastmod>" <= s[k..] && CloseUrl(s[k + 10..]).Some?)
    ensures k < |s| && NoLineTerminator(s[..k + 1])
    ensures LazyLastmod(s, k) == LazyLastmod(s, k + 1)
  {
    NoLineExtend(s, k);
  }

  /** A lastmod capture is free of line terminators. */
  lemma {:induction false} LazyLastmodNoLine(s: string, k: nat)
    requires k <= |s| && NoLineTerminator(s[..k])
    requires LazyLastmod(s, k).Some?
    ensures NoLineTerminator(LazyLastmod(s, k).value.0)
    decreases |s| - k
  {
    if !("</lastmod>" <= s[k..] && CloseUrl(s[k + 10..]).Some?) {
      LazyLastmodNext(s, k);
      LazyLastmodNoLine(s, k + 1);
    }
  }

  /** `</lastmod>\s*</url>` at position `k` ends with `</url>`. */
  lemma LastmodCloseEnds(s: string, k: nat)
    requires k + 10 <= |s| && CloseUrl(s[k + 10..]).Some?
    ensures var n := k + 10 + CloseUrl(s[k + 10..]).value; s[n - 6..n] == "</url>"
  {
    var c := CloseUrl(s[k + 10..]).value;
    CloseUrlShape(s[k + 10..]);
    SubSlice(s, k + 10, c - 6, c);
  }

  /** A match of the lastmod part ends with `</url>`. */
  lemma {:induction false} LazyLastmodEnds(s: string, k: nat)
    requires k <= |s| && NoLineTerminator(s[..k])
    requires LazyLastmod(s, k).Some?
    ensures var n := LazyLastmod(s, k).value.1; s[n - 6..n] == "</url>"
    decreases |s| - k
  {
    if "</lastmod>" <= s[k..] && CloseUrl(s[k + 10..]).Some? {
      LastmodCloseEnds(s, k);
    } else {
      LazyLastmodNext(s, k);
      LazyLastmodEnds(s, k + 1);
    }
  }

  lemma TailNoLine(s: string)
    requires Tail(s).Some?
    ensures NoLineTerminator(Tail(s).value.0)
  {
    var w := SkipSpace(s);
    if "<lastmod>" <= s[w..] {
      var t := s[w + 9..];
      assert t[..0] == [];
      LazyLastmodNoLine(t, 0);
    }
  }

  lemma LastmodEnds(s: string, d: nat)
    requires d <= |s| && LazyLastmod(s[d..], 0).Some?
    ensures var n := d + LazyLastmod(s[d..], 0).value.1; s[n - 6..n] == "</url>"
  {
    var t := s[d..];
    assert t[..0] == [];
    LazyLastmodEnds(t, 0);
    var n := LazyLastmod(t, 0).value.1;
    SubSlice(s, d, n - 6, n);
  }

  lemma TailEnds(s: string)
    requires Tail(s).Some?
    ensures var n := Tail(s).value.1; s[n - 6..n] == "</url>"
  {
    var w := SkipSpace(s);
    if "<lastmod>" <= s[w..] {
      LastmodEnds(s, w + 9);
    } else {
      PrefixSlice(s, w, "</url>");
    }
  }

  /** Where `</loc>` and the rest of the pattern do not follow, the lazy
      location capture tries one character more. */
  lemma LazyLocNext(s: string, k: nat)
    requires k <= |s| && NoLineTerminator(s[..k])
    requires LazyLoc(s, k).Some?
    requires !("</loc>" <= s[k..] && Tail(s[k + 6..]).Some?)
    ensures k < |s| && NoLineTerminator(s[..k + 1])
    ensures LazyLoc(s, k) == LazyLoc(s, k + 1)
  {
    NoLineExtend(s, k);
  }

  /** The captures of a location match are free of line terminators. */
  lemma {:induction false} LazyLocNoLine(s: string, k: nat)
    requires k <= |s| && NoLineTerminator(s[..k])
    requires LazyLoc(s, k).Some?
    ensures NoLineTerminator(LazyLoc(s, k).value.0.loc)
    ensures NoLineTerminator(LazyLoc(s, k).value.0.lastmod)
    decreases |s| - k
  {
    if "</loc>" <= s[k..] && Tail(s[k + 6..]).Some? {
      TailNoLine(s[k + 6..]);
    } else {
      LazyLocNext(s, k);
      LazyLocNoLine(s, k + 1);
    }
  }

  /** `</loc>` and the rest of the pattern at position `k` end with `</url>`. */
  lemma LocCloseEnds(s: string, k: nat)
    requires k + 6 <= |s| && Tail(s[k + 6..]).Some?
    ensures var n := k + 6 + Tail(s[k + 6..]).value.1; s[n - 6..n] == "</url>"
  {
    var t := Tail(s[k + 6..]).value;
    TailEnds(s[k + 6..]);
    SubSlice(s, k + 6, t.1 - 6, t.1);
  }

  /** A location match ends with `</url>`. */
  lemma {:induction false} LazyLocEnds(s: string, k: nat)
    requires k <= |s| && NoLineTerminator(s[..k])
    requires LazyLoc(s, k).Some?
    ensures var n := LazyLoc(s, k).value.1; s[n - 6..n] == "</url>"
    decreases |s| - k
  {
    if "</loc>" <= s[k..] && Tail(s[k + 6..]).Some? {
      LocCloseEnds(s, k);
    } else {
      LazyLocNext(s, k);
      LazyLocEnds(s, k + 1);
    }
  }

  /** What a match of length `n` at the start of `s` spans: it starts with
      `<url>`, ends with `</url>`, and captures fields free of line
      terminators. */
  predicate Shaped(s: string, e: SitemapEntry, n: int) {
    && 6 <= n <= |s| && "<url>" <= s && s[n - 6..n] == "</url>"
    && NoLineTerminator(e.loc) && NoLineTerminator(e.lastmod)
  }

  lemma MatchAtShape(s: string)
    requires MatchAt(s).Some?
    ensures Shaped(s, MatchAt(s).value.0, MatchAt(s).value.1)
  {
    var w := MatchAtLoc(s);
    LocShape(s, w);
  }

  /** A location part that matches at `w + 5`, after an opening `<url>`,
      gives a shaped match. */
  lemma LocShape(s: string, w: nat)
    requires "<url>" <= s && w + 5 <= |s|
    requires NoLineTerminator(s[w + 5..][..0]) && LazyLoc(s[w + 5..], 0).Some?
    ensures var m := LazyLoc(s[w + 5..], 0).value; Shaped(s, m.0, w + 5 + m.1)
  {
    var t := s[w + 5..];
    var m := LocPartShape(t);
    SubSlice(s, w + 5, m.1 - 6, m.1);
  }

  /** A location part's captures hold no line terminator, and it ends with
      `</url>`. */
  lemma LocPartShape(t: string) returns (m: (SitemapEntry, nat))
    requires NoLineTerminator(t[..0]) && LazyLoc(t, 0).Some?
    ensures m == LazyLoc(t, 0).value && 6 <= m.1 <= |t|
    ensures NoLineTerminator(m.0.loc) && NoLineTerminator(m.0.lastmod)
    ensures t[m.1 - 6..m.1] == "</url>"
  {
    m := LazyLoc(t, 0).value;
    LazyLocNoLine(t, 0);
    LazyLocEnds(t, 0);
  }

  /** A match opens with `<url>`, and its location part starts at `w + 5`,
      where `w` is the end of the whitespace after `<url>`. */
  lemma MatchAtLoc(s: string) returns (w: nat)
    requires MatchAt(s).Some?
    ensures "<url>" <= s && w + 5 <= |s|
    ensures var t := s[w + 5..];
            && NoLineTerminator(t[..0]) && LazyLoc(t, 0).Some?
            && MatchAt(s).value == (LazyLoc(t, 0).value.0, w + 5 + LazyLoc(t, 0).value.1)
  {
    w := 5 + SkipSpace(s[5..]);
  }

  /** Every match `matcher` reports has the shape of a match. */
  ghost predicate ShapedMatcher(matcher: Matcher) {
    forall x :: matcher(x).Some? ==> Shaped(x, matcher(x).value.0, matcher(x).value.1)
  }

  lemma MatchAtShaped()
    ensures ShapedMatcher(MatchAt)
  {
    forall x | MatchAt(x).Some?
      ensures Shaped(x, MatchAt(x).value.0, MatchAt(x).value.1)
    {
      MatchAtShape(x);
    }
  }

  // ---------------------------------------------------------------------------
  // The exec loop
  // ---------------------------------------------------------------------------

  /** A match found by the loop: where it starts and stops in the body. */
  datatype Match = Match(start: nat, stop: nat, entry: SitemapEntry)

  /** Matches anchored at the start of the text, as `MatchAt` finds them: the
      entry and the length of the match. */
  type Matcher = string -> Option<(SitemapEntry, nat)>

  /** Every match the matcher reports is non-empty and lies within the text,
      so the loop moves forward. */
  ghost predicate Advances(matcher: Matcher) {
    forall x :: matcher(x).Some? ==> 0 < matcher(x).value.1 <= |x|
  }

  lemma MatchAtAdvances()
    ensures Advances(MatchAt)
  {
  }

  function Shift(ms: seq<Match>, d: nat): (r: seq<Match>)
    ensures |r| == |ms|
    ensures forall k :: 0 <= k < |ms| ==>
              r[k] == Match(ms[k].start + d, ms[k].stop + d, ms[k].entry)
  {
    seq(|ms|, k requires 0 <= k < |ms| => Match(ms[k].start + d, ms[k].stop + d, ms[k].entry))
  }

  /** The match the loop records at the front of `s`, if the pattern matches
      there. */
  function Found(matcher: Matcher, s: string): (r: seq<Match>)
    ensures |r| <= 1
    ensures |r| == 1 <==> matcher(s).Some?
  {
    if matcher(s).Some? then [Match(0, matcher(s).value.1, matcher(s).value.0)] else []
  }

  /** Where the next search starts: behind the match, or one character
      further on when there is none. */
  function Step(matcher: Matcher, s: string): (n: nat)
    requires Advances(matcher) && |s| > 0
    ensures 0 < n <= |s|
  {
    if matcher(s).Some? then matcher(s).value.1 else 1
  }

  /** All matches of the global regular expression in `s`, in the order the
      exec loop finds them. */
  function ScanMatches(matcher: Matcher, s: string): (ms: seq<Match>)
    requires Advances(matcher)
    ensures forall k :: 0 <= k < |ms| ==> ms[k].start < ms[k].stop <= |s|
    ensures forall k :: 0 < k < |ms| ==> ms[k - 1].stop <= ms[k].start
    decreases |s|
  {
    if |s| == 0 then []
    else
      var n := Step(matcher, s);
      var rest := ScanMatches(matcher, s[n..]);
      FoundThenShifted(Found(matcher, s), rest, n, |s|);
      Found(matcher, s) + Shift(rest, n)
  }

  /** Matches in order within `len` characters, each non-empty. */
  predicate InOrder(ms: seq<Match>, len: int) {
    && (forall k :: 0 <= k < |ms| ==> ms[k].start < ms[k].stop <= len)
    && (forall k :: 0 < k < |ms| ==> ms[k - 1].stop <= ms[k].start)
  }

  /** A match ending at `n`, followed by the matches found behind it, is in
      order. */
  lemma FoundThenShifted(found: seq<Match>, rest: seq<Match>, n: nat, len: nat)
    requires n <= len && |found| <= 1
    requires forall k :: 0 <= k < |found| ==> found[k].start < found[k].stop <= n
    requires forall k :: 0 <= k < |rest| ==> rest[k].start < rest[k].stop <= len - n
    requires forall k :: 0 < k < |rest| ==> rest[k - 1].stop <= rest[k].start
    ensures InOrder(found + Shift(rest, n), len)
  {
  }

  function Entries(ms: seq<Match>): (es: seq<SitemapEntry>)
    ensures |es| == |ms|
    ensures forall k :: 0 <= k < |ms| ==> es[k] == ms[k].entry
  {
    seq(|ms|, k requires 0 <= k < |ms| => ms[k].entry)
  }

  /** The entries the loop pushes, in the order it pushes them. */
  function Scan(s: string): (r: seq<SitemapEntry>)
    ensures |r| <= CountOpenTags(s)
    ensures forall k :: 0 <= k < |r| ==> NoLineTerminator(r[k].loc) && NoLineTerminator(r[k].lastmod)
  {
    MatchAtAdvances();
    MatchAtShaped();
    ScanMatchesSound(MatchAt, s);
    ScanBoundedByOpenTags(MatchAt, s);
    Entries(ScanMatches(MatchAt, s))
  }

  /** `parseSitemap(url)`: the entries of the fetched body; every thrown error
      gives the empty list. The HTTP status is not consulted. */
  function ParseSitemap(fetch: string -> Fetched, url: string): (r: seq<SitemapEntry>)
    ensures !fetch(url).Body? ==> r == []
    ensures fetch(url).Body? ==> |r| <= CountOpenTags(fetch(url).text)
    ensures forall k :: 0 <= k < |r| ==> NoLineTerminator(r[k].loc) && NoLineTerminator(r[k].lastmod)
  {
    match fetch(url)
    case Body(_, text) => Scan(text)
    case _ => []
  }

  // ---------------------------------------------------------------------------
  // What the loop finds
  // ---------------------------------------------------------------------------

  /** Slices of a three-part concatenation. */
  lemma Parts(a: string, b: string, c: string)
    ensures (a + b + c)[..|a|] == a
    ensures (a + b + c)[|a|..] == b + c
    ensures (a + b + c)[|a| + |b|..] == c
  {
  }

  lemma SliceOfSlice(s: string, n: nat, a: nat)
    requires n + a <= |s|
    ensures s[n..][a..] == s[n + a..]
  {
  }

  /** Every match in `ms` is a match of `matcher` at its start in `s`. */
  predicate AllMatchWith(matcher: Matcher, s: string, ms: seq<Match>) {
    forall k :: 0 <= k < |ms| ==>
      ms[k].start <= |s| && matcher(s[ms[k].start..]) == Some((ms[k].entry, ms[k].stop - ms[k].start))
  }

  lemma MatchOf(matcher: Matcher, s: string, ms: seq<Match>, k: nat)
    requires AllMatchWith(matcher, s, ms) && k < |ms|
    ensures ms[k].start <= |s| && matcher(s[ms[k].start..]) == Some((ms[k].entry, ms[k].stop - ms[k].start))
  {
  }

  lemma ShiftOneMatch(matcher: Matcher, s: string, d: nat, ms: seq<Match>, k: nat)
    requires d <= |s|
    requires AllMatchWith(matcher, s[d..], ms)
    requires k < |ms|
    ensures
      var m := Shift(ms, d)[k];
      m.start <= |s| && matcher(s[m.start..]) == Some((m.entry, m.stop - m.start))
  {
    var m := ms[k];
    assert m.start <= |s[d..]| && matcher(s[d..][m.start..]) == Some((m.entry, m.stop - m.start));
    SliceOfSlice(s, d, m.start);
  }

  /** Shifting matches found in a suffix keeps them matches in the whole text. */
  lemma ShiftAllMatch(matcher: Matcher, s: string, d: nat, ms: seq<Match>)
    requires d <= |s|
    requires AllMatchWith(matcher, s[d..], ms)
    ensures AllMatchWith(matcher, s, Shift(ms, d))
  {
    forall k | 0 <= k < |ms|
      ensures
        var m := Shift(ms, d)[k];
        m.start <= |s| && matcher(s[m.start..]) == Some((m.entry, m.stop - m.start))
    {
      ShiftOneMatch(matcher, s, d, ms, k);
    }
  }

  lemma AllMatchWithConcat(matcher: Matcher, s: string, a: seq<Match>, b: seq<Match>)
    requires AllMatchWith(matcher, s, a) && AllMatchWith(matcher, s, b)
    ensures AllMatchWith(matcher, s, a + b)
  {
    forall k | 0 <= k < |a + b|
      ensures (a + b)[k].start <= |s|
      ensures matcher(s[(a + b)[k].start..]) == Some(((a + b)[k].entry, (a + b)[k].stop - (a + b)[k].start))
    {
      if k < |a| {
        MatchOf(matcher, s, a, k);
      } else {
        MatchOf(matcher, s, b, k - |a|);
      }
    }
  }

  lemma FoundMatches(matcher: Matcher, s: string)
    ensures AllMatchWith(matcher, s, Found(matcher, s))
  {
    assert s[0..] == s;
  }

  /** Each reported match is a match of the pattern at its start position. */
  lemma {:induction false} ScanMatchesAreMatches(matcher: Matcher, s: string)
    requires Advances(matcher)
    ensures AllMatchWith(matcher, s, ScanMatches(matcher, s))
    decreases |s|
  {
    if |s| > 0 {
      var n := Step(matcher, s);
      ScanMatchesAreMatches(matcher, s[n..]);
      ShiftAllMatch(matcher, s, n, ScanMatches(matcher, s[n..]));
      FoundMatches(matcher, s);
      AllMatchWithConcat(matcher, s, Found(matcher, s), Shift(ScanMatches(matcher, s[n..]), n));
    }
  }

  /** Match `m` of the loop, read in the whole text `s`: it begins with
      `<url>`, ends with `</url>` and has fields free of line terminators. */
  predicate MatchedIn(s: string, m: Match) {
    && m.start <= |s| && "<url>" <= s[m.start..]
    && 6 <= m.stop <= |s| && s[m.stop - 6..m.stop] == "</url>"
    && NoLineTerminator(m.entry.loc) && NoLineTerminator(m.entry.lastmod)
  }

  /** A shaped match found at `start` read in the whole text. */
  lemma ShapedIn(s: string, m: Match)
    requires m.start <= |s| && Shaped(s[m.start..], m.entry, m.stop - m.start)
    ensures MatchedIn(s, m)
  {
    SubSlice(s, m.start, m.stop - m.start - 6, m.stop - m.start);
  }

  lemma MatchShape(matcher: Matcher, s: string, ms: seq<Match>, k: nat)
    requires AllMatchWith(matcher, s, ms) && ShapedMatcher(matcher)
    requires k < |ms|
    ensures MatchedIn(s, ms[k])
  {
    MatchOf(matcher, s, ms, k);
    ShapedIn(s, ms[k]);
  }

  /** Every reported match has the shape of a match whenever every single
      match the matcher reports has it (as `MatchAtShaped` shows of the
      pattern). */
  lemma ScanMatchesSound(matcher: Matcher, s: string)
    requires Advances(matcher) && ShapedMatcher(matcher)
    ensures forall k :: 0 <= k < |ScanMatches(matcher, s)| ==> MatchedIn(s, ScanMatches(matcher, s)[k])
  {
    var ms := ScanMatches(matcher, s);
    ScanMatchesAreMatches(matcher, s);
    forall k | 0 <= k < |ms|
      ensures MatchedIn(s, ms[k])
    {
      MatchShape(matcher, s, ms, k);
    }
  }

  /** Position `i` lies inside one of the matches. */
  ghost predicate Covered(ms: seq<Match>, i: nat) {
    exists k :: 0 <= k < |ms| && ms[k].start <= i < ms[k].stop
  }

  /** Every position of `s` where `matcher` succeeds lies inside a match of `ms`. */
  ghost predicate CompleteWith(matcher: Matcher, s: string, ms: seq<Match>) {
    forall i :: 0 <= i < |s| && matcher(s[i..]).Some? ==> Covered(ms, i)
  }

  /** Coverage of a suffix carries over to the whole text once the matches
      found in the suffix are shifted behind the `front` matches. */
  lemma CoverShift(matcher: Matcher, s: string, d: nat, front: seq<Match>, tl: seq<Match>)
    requires d <= |s|
    requires CompleteWith(matcher, s[d..], tl)
    ensures forall i :: d <= i < |s| && matcher(s[i..]).Some? ==> Covered(front + Shift(tl, d), i)
  {
    var ms := front + Shift(tl, d);
    forall i | d <= i < |s| && matcher(s[i..]).Some?
      ensures Covered(ms, i)
    {
      SliceOfSlice(s, d, i - d);
      assert Covered(tl, i - d);
      var k :| 0 <= k < |tl| && tl[k].start <= i - d < tl[k].stop;
      assert ms[|front| + k] == Shift(tl, d)[k];
      assert ms[|front| + k].start <= i < ms[|front| + k].stop;
    }
  }

  /** Positions skipped by one step of the loop: the match found there
      covers them, or the step is the single position where there is none. */
  lemma StepCovered(matcher: Matcher, s: string, tl: seq<Match>, i: nat)
    requires Advances(matcher) && |s| > 0
    requires i < Step(matcher, s) && matcher(s[i..]).Some?
    ensures Covered(Found(matcher, s) + tl, i)
  {
    var ms := Found(matcher, s) + tl;
    if matcher(s).Some? {
      assert ms[0].start <= i < ms[0].stop;
    } else {
      assert false;
    }
  }

  /** The loop misses no match: every position where the pattern matches is
      either where a reported match starts or inside an earlier one. Together
      with the order of `ScanMatches` this is leftmost, non-overlapping
      matching. */
  lemma {:induction false} ScanMatchesComplete(matcher: Matcher, s: string)
    requires Advances(matcher)
    ensures CompleteWith(matcher, s, ScanMatches(matcher, s))
    decreases |s|
  {
    if |s| > 0 {
      var n := Step(matcher, s);
      var tl := Shift(ScanMatches(matcher, s[n..]), n);
      ScanMatchesComplete(matcher, s[n..]);
      CoverShift(matcher, s, n, Found(matcher, s), ScanMatches(matcher, s[n..]));
      forall i | 0 <= i < n && matcher(s[i..]).Some?
        ensures Covered(Found(matcher, s) + tl, i)
      {
        StepCovered(matcher, s, tl, i);
      }
    }
  }

  /** Number of positions in `s` where a literal `<url>` starts. */
  function CountOpenTags(s: string): nat
    decreases |s|
  {
    if |s| == 0 then 0
    else (if "<url>" <= s then 1 else 0) + CountOpenTags(s[1..])
  }

  lemma {:induction false} CountOpenTagsDrop(s: string, j: nat)
    requires j <= |s|
    ensures CountOpenTags(s[j..]) <= CountOpenTags(s)
    decreases j
  {
    if j > 0 {
      CountOpenTagsDrop(s, j - 1);
      assert s[j - 1..][1..] == s[j..];
    }
  }

  /** One step of the loop passes at least as many `<url>` tags as it
      records matches. */
  lemma CountOpenTagsStep(matcher: Matcher, s: string)
    requires Advances(matcher) && ShapedMatcher(matcher) && |s| > 0
    ensures |Found(matcher, s)| + CountOpenTags(s[Step(matcher, s)..]) <= CountOpenTags(s)
  {
    var n := Step(matcher, s);
    assert s[n..] == s[1..][n - 1..];
    CountOpenTagsDrop(s[1..], n - 1);
  }

  /** There are never more entries than literal `<url>` tags. */
  lemma {:induction false} ScanBoundedByOpenTags(matcher: Matcher, s: string)
    requires Advances(matcher) && ShapedMatcher(matcher)
    ensures |ScanMatches(matcher, s)| <= CountOpenTags(s)
    decreases |s|
  {
    if |s| > 0 {
      ScanBoundedByOpenTags(matcher, s[Step(matcher, s)..]);
      CountOpenTagsStep(matcher, s);
    }
  }

  lemma EntriesConcat(a: seq<Match>, b: seq<Match>)
    ensures Entries(a + b) == Entries(a) + Entries(b)
  {
  }

  lemma EntriesShift(ms: seq<Match>, d: nat)
    ensures Entries(Shift(ms, d)) == Entries(ms)
  {
  }

  /** One step of the loop, on entries. */
  lemma ScanStepWith(matcher: Matcher, s: string)
    requires Advances(matcher) && |s| > 0
    ensures Entries(ScanMatches(matcher, s))
            == Entries(Found(matcher, s)) + Entries(ScanMatches(matcher, s[Step(matcher, s)..]))
  {
    var n := Step(matcher, s);
    EntriesConcat(Found(matcher, s), Shift(ScanMatches(matcher, s[n..]), n));
    EntriesShift(ScanMatches(matcher, s[n..]), n);
  }

  lemma ScanStep(s: string)
    requires |s| > 0
    ensures MatchAt(s).Some? ==> Scan(s) == [MatchAt(s).value.0] + Scan(s[MatchAt(s).value.1..])
    ensures MatchAt(s).None? ==> Scan(s) == Scan(s[1..])
  {
    MatchAtAdvances();
    ScanStepWith(MatchAt, s);
    if MatchAt(s).None? {
      assert Entries(Found(MatchAt, s)) + Scan(s[1..]) == Scan(s[1..]);
    }
  }

  /** The HTTP status of the response does not influence the result. */
  lemma StatusIgnored(text: string, status1: int, status2: int)
    ensures ParseSitemap(_ => Body(status1, text), "") == ParseSitemap(_ => Body(status2, text), "")
  {
  }

  // ---------------------------------------------------------------------------
  // Well-formed blocks
  // ---------------------------------------------------------------------------

  /** `close` does not occur anywhere in `x`. */
  predicate Free(x: string, close: string) {
    forall i :: 0 <= i <= |x| ==> !(close <= x[i..])
  }

  /** A `<url>` block with the given whitespace runs, location and lastmod
      element (`""` when the block has none). */
  function Block(w1: string, loc: string, w2: string, lastmodElement: string, w3: string): string {
    "<url>" + w1 + "<loc>" + loc + "</loc>" + w2 + lastmodElement + w3 + "</url>"
  }

  function LastmodElement(m: string): string {
    "<lastmod>" + m + "</lastmod>"
  }

  lemma {:induction false} SkipSpaceOver(w: string, y: string)
    requires AllSpace(w)
    requires |y| > 0 && !IsRegexSpace(y[0])
    ensures SkipSpace(w + y) == |w|
    decreases |w|
  {
    if |w| > 0 {
      assert (w + y)[1..] == w[1..] + y;
      SkipSpaceOver(w[1..], y);
    }
  }

  /** A closing tag cannot start inside `x` when `x` does not contain it: its
      first character `<` does not occur again in it, so it cannot straddle
      into the copy that follows `x`. */
  lemma CloseNotBefore(x: string, close: string, y: string, i: nat)
    requires Free(x, close)
    requires |close| > 0 && forall j :: 1 <= j < |close| ==> close[j] != close[0]
    requires i < |x|
    ensures !(close <= (x + close + y)[i..])
  {
    var s := x + close + y;
    if i + |close| <= |x| {
      assert s[i..][..|close|] == x[i..][..|close|];
    } else {
      var p := |x| - i;
      assert s[i..][p] == close[0];
    }
  }

  lemma {:induction false} LazyLocAdvance(s: string, k: nat, j: nat)
    requires k <= j <= |s|
    requires NoLineTerminator(s[..j])
    requires forall i :: k <= i < j ==> !("</loc>" <= s[i..])
    ensures LazyLoc(s, k) == LazyLoc(s, j)
    decreases j - k
  {
    if k < j {
      assert s[..j][k] == s[k];
      assert s[..j][..k + 1] == s[..k + 1];
      LazyLocAdvance(s, k + 1, j);
    }
  }

  lemma {:induction false} LazyLastmodAdvance(s: string, k: nat, j: nat)
    requires k <= j <= |s|
    requires NoLineTerminator(s[..j])
    requires forall i :: k <= i < j ==> !("</lastmod>" <= s[i..])
    ensures LazyLastmod(s, k) == LazyLastmod(s, j)
    decreases j - k
  {
    if k < j {
      assert s[..j][k] == s[k];
      assert s[..j][..k + 1] == s[..k + 1];
      LazyLastmodAdvance(s, k + 1, j);
    }
  }

  lemma CloseUrlOver(w3: string, rest: string)
    requires AllSpace(w3)
    ensures CloseUrl(w3 + "</url>" + rest) == Some(|w3| + 6)
  {
    var v := w3 + "</url>" + rest;
    assert v == w3 + ("</url>" + rest);
    SkipSpaceOver(w3, "</url>" + rest);
    assert v[|w3|..] == "</url>" + rest;
  }

  lemma LazyLastmodHit(u: string, k: nat)
    requires k <= |u|
    requires NoLineTerminator(u[..k])
    requires "</lastmod>" <= u[k..] && CloseUrl(u[k + 10..]).Some?
    ensures LazyLastmod(u, k) == Some((u[..k], k + 10 + CloseUrl(u[k + 10..]).value))
  {
  }

  /** With no `close` inside `m`, and a `close` whose first character does
      not recur in it, `close` occurs in `m + close + after` only at or after
      `|m|`. */
  lemma NoCloseInside(m: string, close: string, after: string)
    requires Free(m, close)
    requires |close| > 0 && forall j :: 1 <= j < |close| ==> close[j] != close[0]
    ensures forall i :: 0 <= i < |m| ==> !(close <= (m + close + after)[i..])
  {
    forall i | 0 <= i < |m|
      ensures !(close <= (m + close + after)[i..])
    {
      CloseNotBefore(m, close, after, i);
    }
  }

  lemma LazyLastmodSkipsCapture(m: string, after: string)
    requires NoLineTerminator(m) && Free(m, "</lastmod>")
    ensures |m| <= |m + "</lastmod>" + after|
    ensures NoLineTerminator((m + "</lastmod>" + after)[..|m|])
    ensures LazyLastmod(m + "</lastmod>" + after, 0) == LazyLastmod(m + "</lastmod>" + after, |m|)
  {
    var u := m + "</lastmod>" + after;
    NoCloseInside(m, "</lastmod>", after);
    assert u[..|m|] == m;
    LazyLastmodAdvance(u, 0, |m|);
  }

  lemma LazyLastmodAtClose(u: string, m: string, after: string, c: nat)
    requires u == m + "</lastmod>" + after
    requires NoLineTerminator(m)
    requires CloseUrl(after) == Some(c)
    ensures LazyLastmod(u, |m|) == Some((m, |m| + 10 + c))
  {
    Parts(m, "</lastmod>", after);
    LazyLastmodHit(u, |m|);
  }

  /** With no `</lastmod>` inside `m`, the lazy capture is `m`. */
  lemma LazyLastmodStops(m: string, after: string, c: nat)
    requires NoLineTerminator(m) && Free(m, "</lastmod>")
    requires CloseUrl(after) == Some(c)
    ensures LazyLastmod(m + "</lastmod>" + after, 0) == Some((m, |m| + 10 + c))
  {
    LazyLastmodSkipsCapture(m, after);
    LazyLastmodAtClose(m + "</lastmod>" + after, m, after, c);
  }

  /** After `</loc>`: whitespace, then a lastmod element whose text has no
      closing tag, then `\s*</url>` spanning `c` characters. */
  lemma TailWithLastmod(w2: string, m: string, after: string, c: nat)
    requires AllSpace(w2)
    requires NoLineTerminator(m) && Free(m, "</lastmod>")
    requires CloseUrl(after) == Some(c)
    ensures Tail(w2 + ("<lastmod>" + (m + "</lastmod>" + after)))
            == Some((m, |w2| + 9 + (|m| + 10 + c)))
  {
    var x := m + "</lastmod>" + after;
    var s := w2 + ("<lastmod>" + x);
    SkipSpaceOver(w2, "<lastmod>" + x);
    assert s[|w2|..] == "<lastmod>" + x;
    assert s[|w2| + 9..] == x;
    LazyLastmodStops(m, after, c);
  }

  lemma TailWithoutLastmod(w2: string, w3: string, rest: string)
    requires AllSpace(w2) && AllSpace(w3)
    ensures Tail(w2 + w3 + "</url>" + rest) == Some(("", |w2| + |w3| + 6))
  {
    var s := w2 + w3 + "</url>" + rest;
    assert s == (w2 + w3) + ("</url>" + rest);
    assert AllSpace(w2 + w3);
    SkipSpaceOver(w2 + w3, "</url>" + rest);
    assert s[|w2| + |w3|..] == "</url>" + rest;
    assert s[|w2| + |w3| + 1] == '/';
  }

  lemma TailWithElement(w2: string, m: string, w3: string, rest: string)
    requires AllSpace(w2) && AllSpace(w3)
    requires NoLineTerminator(m) && Free(m, "</lastmod>")
    ensures Tail(w2 + LastmodElement(m) + w3 + "</url>" + rest)
            == Some((m, |w2| + |LastmodElement(m)| + |w3| + 6))
  {
    var after := w3 + "</url>" + rest;
    ElementRegroup(w2, m, after);
    Regroup(w2 + LastmodElement(m), w3, "</url>", rest);
    CloseUrlOver(w3, rest);
    TailWithLastmod(w2, m, after, |w3| + 6);
    assert |LastmodElement(m)| == 9 + |m| + 10;
  }

  /** `a + b + c + d` read as `a` followed by the block `b + c + d`. */
  lemma Regroup(a: string, b: string, c: string, d: string)
    ensures a + b + c + d == a + (b + c + d)
  {
  }

  /** A lastmod element between `w2` and `after`, regrouped the way `Tail`
      reads it. */
  lemma ElementRegroup(w2: string, m: string, after: string)
    ensures w2 + LastmodElement(m) + after == w2 + ("<lastmod>" + (m + "</lastmod>" + after))
  {
  }

  lemma LazyLocHit(u: string, k: nat)
    requires k <= |u|
    requires NoLineTerminator(u[..k])
    requires "</loc>" <= u[k..] && Tail(u[k + 6..]).Some?
    ensures LazyLoc(u, k) == Some((SitemapEntry(u[..k], Tail(u[k + 6..]).value.0), k + 6 + Tail(u[k + 6..]).value.1))
  {
  }

  lemma LazyLocSkipsCapture(loc: string, after: string)
    requires NoLineTerminator(loc) && Free(loc, "</loc>")
    ensures |loc| <= |loc + "</loc>" + after|
    ensures NoLineTerminator((loc + "</loc>" + after)[..|loc|])
    ensures LazyLoc(loc + "</loc>" + after, 0) == LazyLoc(loc + "</loc>" + after, |loc|)
  {
    var u := loc + "</loc>" + after;
    NoCloseInside(loc, "</loc>", after);
    assert u[..|loc|] == loc;
    LazyLocAdvance(u, 0, |loc|);
  }

  lemma LazyLocAtClose(u: string, loc: string, t: string, lastmod: string, n: nat)
    requires u == loc + "</loc>" + t
    requires NoLineTerminator(loc)
    requires Tail(t) == Some((lastmod, n))
    ensures LazyLoc(u, |loc|) == Some((SitemapEntry(loc, lastmod), |loc| + 6 + n))
  {
    Parts(loc, "</loc>", t);
    LazyLocHit(u, |loc|);
  }

  /** The lazy location capture stops at the first `</loc>`. */
  lemma LazyLocOver(loc: string, t: string, lastmod: string, n: nat)
    requires NoLineTerminator(loc) && Free(loc, "</loc>")
    requires Tail(t) == Some((lastmod, n))
    ensures LazyLoc(loc + "</loc>" + t, 0) == Some((SitemapEntry(loc, lastmod), |loc| + 6 + n))
  {
    LazyLocSkipsCapture(loc, t);
    LazyLocAtClose(loc + "</loc>" + t, loc, t, lastmod, n);
  }

  /** `<url>`, whitespace and `<loc>` in front of the location. */
  lemma MatchAtOpening(s: string, w1: string, x: string, e: SitemapEntry, n: nat, len: nat)
    requires s == "<url>" + w1 + "<loc>" + x
    requires AllSpace(w1)
    requires LazyLoc(x, 0) == Some((e, n)) && len == 5 + |w1| + 5 + n
    ensures MatchAt(s) == Some((e, len))
  {
    OpeningParts(w1, x);
    MatchAtFrom(s, 5 + |w1|, e, n);
  }

  /** Where the parts of `<url>`, whitespace, `<loc>` and the rest lie. */
  lemma OpeningParts(w1: string, x: string)
    requires AllSpace(w1)
    ensures var s := "<url>" + w1 + "<loc>" + x;
            && "<url>" <= s && SkipSpace(s[5..]) == |w1|
            && 5 + |w1| + 5 <= |s| && "<loc>" <= s[5 + |w1|..]
            && s[5 + |w1| + 5..] == x
  {
    var s := "<url>" + w1 + "<loc>" + x;
    Opening("<url>", w1, "<loc>", x);
    SkipSpaceOver(w1, "<loc>" + x);
    assert s[5..] == w1 + ("<loc>" + x);
  }

  /** `MatchAt` read off its parts: `<url>`, whitespace up to `w`, `<loc>`,
      and a location part matching at `w + 5`. */
  lemma MatchAtFrom(s: string, w: nat, e: SitemapEntry, n: nat)
    requires "<url>" <= s && 5 <= w && SkipSpace(s[5..]) == w - 5
    requires w + 5 <= |s| && "<loc>" <= s[w..]
    requires NoLineTerminator(s[w + 5..][..0]) && LazyLoc(s[w + 5..], 0) == Some((e, n))
    ensures MatchAt(s) == Some((e, w + 5 + n))
  {
  }

  /** Slices of a tag, a run, a tag and the rest. */
  lemma Opening(a: string, w: string, b: string, x: string)
    ensures a <= a + w + b + x
    ensures (a + w + b + x)[|a|..] == w + (b + x)
    ensures b <= (a + w + b + x)[|a| + |w|..]
    ensures (a + w + b + x)[|a| + |w| + |b|..] == x
  {
    var s := a + w + b + x;
    assert s[|a|..] == w + (b + x);
    assert s[|a| + |w|..] == b + x;
    assert s[|a| + |w| + |b|..] == x;
  }

  /** A block whose text after `</loc>` is matched by `Tail`. */
  lemma BlockFromTail(s: string, w1: string, loc: string, t: string, lastmod: string, n: nat, len: nat)
    requires s == "<url>" + w1 + "<loc>" + (loc + "</loc>" + t)
    requires AllSpace(w1)
    requires NoLineTerminator(loc) && Free(loc, "</loc>")
    requires Tail(t) == Some((lastmod, n))
    requires len == 5 + |w1| + 5 + (|loc| + 6 + n)
    ensures MatchAt(s) == Some((SitemapEntry(loc, lastmod), len))
  {
    LazyLocOver(loc, t, lastmod, n);
    MatchAtOpening(s, w1, loc + "</loc>" + t, SitemapEntry(loc, lastmod), |loc| + 6 + n, len);
  }

  lemma BlockLayout(w1: string, loc: string, w2: string, el: string, w3: string, rest: string)
    ensures |Block(w1, loc, w2, el, w3)| == 5 + |w1| + 5 + (|loc| + 6 + (|w2| + |el| + |w3| + 6))
    ensures Block(w1, loc, w2, el, w3) + rest
            == "<url>" + w1 + "<loc>" + (loc + "</loc>" + (w2 + el + w3 + "</url>" + rest))
  {
  }

  /** A block whose lastmod element and closing part `Tail` consumes whole. */
  lemma BlockMatchesGiven(w1: string, loc: string, w2: string, el: string, w3: string, rest: string,
                          lastmod: string)
    requires AllSpace(w1)
    requires NoLineTerminator(loc) && Free(loc, "</loc>")
    requires Tail(w2 + el + w3 + "</url>" + rest) == Some((lastmod, |w2| + |el| + |w3| + 6))
    ensures MatchAt(Block(w1, loc, w2, el, w3) + rest)
            == Some((SitemapEntry(loc, lastmod), |Block(w1, loc, w2, el, w3)|))
  {
    var t := w2 + el + w3 + "</url>" + rest;
    BlockLayout(w1, loc, w2, el, w3, rest);
    BlockFromTail(Block(w1, loc, w2, el, w3) + rest, w1, loc, t, lastmod, |w2| + |el| + |w3| + 6,
                  |Block(w1, loc, w2, el, w3)|);
  }

  /** A well-formed block with a lastmod element is matched as a whole and
      yields its location and lastmod. */
  lemma BlockMatchesWithLastmod(w1: string, loc: string, w2: string, m: string, w3: string, rest: string)
    requires AllSpace(w1) && AllSpace(w2) && AllSpace(w3)
    requires NoLineTerminator(loc) && Free(loc, "</loc>")
    requires NoLineTerminator(m) && Free(m, "</lastmod>")
    ensures MatchAt(Block(w1, loc, w2, LastmodElement(m), w3) + rest)
            == Some((SitemapEntry(loc, m), |Block(w1, loc, w2, LastmodElement(m), w3)|))
  {
    TailWithElement(w2, m, w3, rest);
    BlockMatchesGiven(w1, loc, w2, LastmodElement(m), w3, rest, m);
  }

  /** A well-formed block without a lastmod element yields an empty lastmod,
      as `match[2] || ''` does. */
  lemma BlockMatchesWithoutLastmod(w1: string, loc: string, w2: string, w3: string, rest: string)
    requires AllSpace(w1) && AllSpace(w2) && AllSpace(w3)
    requires NoLineTerminator(loc) && Free(loc, "</loc>")
    ensures MatchAt(Block(w1, loc, w2, "", w3) + rest)
            == Some((SitemapEntry(loc, ""), |Block(w1, loc, w2, "", w3)|))
  {
    TailWithoutLastmod(w2, w3, rest);
    assert w2 + "" == w2;
    BlockMatchesGiven(w1, loc, w2, "", w3, rest, "");
  }

  /** `p` holds no `<url>` that starts inside it. */
  predicate NoOpenTagStart(p: string, x: string) {
    forall i :: 0 <= i < |p| ==> !("<url>" <= (p + x)[i..])
  }

  /** Text in which no `<url>` starts before `rest` contributes no entries. */
  lemma {:induction false} ScanSkipsNoise(p: string, rest: string)
    requires NoOpenTagStart(p, rest)
    ensures Scan(p + rest) == Scan(rest)
    decreases |p|
  {
    if |p| > 0 {
      assert (p + rest)[0..] == p + rest;
      assert MatchAt(p + rest).None?;
      ScanStep(p + rest);
      assert (p + rest)[1..] == p[1..] + rest;
      forall i | 0 <= i < |p[1..]|
        ensures !("<url>" <= (p[1..] + rest)[i..])
      {
        assert (p[1..] + rest)[i..] == (p + rest)[i + 1..];
      }
      ScanSkipsNoise(p[1..], rest);
    } else {
      assert p + rest == rest;
    }
  }

  /** No `<url>` starts at a position of `p` holding a character other than
      `<`, or a `<` followed by something other than `u`. */
  lemma NoOpenTagAt(p: string, x: string, i: nat)
    requires i < |p|
    requires p[i] != '<' || (i + 1 < |p| && p[i + 1] != 'u') || (i + 4 < |p| && p[i + 4] != '>')
    ensures !("<url>" <= (p + x)[i..])
  {
    var s := (p + x)[i..];
    assert |s| > 0 && s[0] == p[i];
    if i + 1 < |p| {
      assert s[1] == p[i + 1];
    }
    if i + 4 < |p| {
      assert s[4] == p[i + 4];
    }
  }

  /** One entry's block followed by anything: the matcher yields the entry
      and resumes behind the block. */
  lemma ScanBlock(b: string, tl: string, e: SitemapEntry)
    requires |b| > 0
    requires MatchAt(b + tl) == Some((e, |b|))
    ensures Scan(b + tl) == [e] + Scan(tl)
  {
    ScanStep(b + tl);
    assert (b + tl)[|b|..] == tl;
  }

  // ---------------------------------------------------------------------------
  // Round trip through a rendered sitemap
  // ---------------------------------------------------------------------------

  /** Entries a sitemap can carry unambiguously: no line terminators and no
      closing tag inside a field. */
  predicate Renderable(e: SitemapEntry) {
    && NoLineTerminator(e.loc) && Free(e.loc, "</loc>")
    && NoLineTerminator(e.lastmod) && Free(e.lastmod, "</lastmod>")
  }

  /** The block of one entry as a sitemap generator lays it out. */
  function EntryBlock(e: SitemapEntry): string {
    Block("\n    ", e.loc, "\n    ", LastmodElement(e.lastmod), "\n  ")
  }

  function RenderBlocks(es: seq<SitemapEntry>): string
    decreases |es|
  {
    if |es| == 0 then "" else "  " + EntryBlock(es[0]) + "\n" + RenderBlocks(es[1..])
  }

  /** A sitemap document listing `es`. */
  function RenderSitemap(es: seq<SitemapEntry>): string {
    "<urlset>\n" + RenderBlocks(es) + "</urlset>\n"
  }

  lemma EntryBlockMatches(e: SitemapEntry, tl: string)
    requires Renderable(e)
    ensures Scan(EntryBlock(e) + tl) == [e] + Scan(tl)
  {
    assert AllSpace("\n    ") && AllSpace("\n  ");
    BlockMatchesWithLastmod("\n    ", e.loc, "\n    ", e.lastmod, "\n  ", tl);
    ScanBlock(EntryBlock(e), tl, e);
  }

  lemma ScanSkipsIndent(x: string)
    ensures Scan("  " + x) == Scan(x)
  {
    NoOpenTagAt("  ", x, 0);
    NoOpenTagAt("  ", x, 1);
    ScanSkipsNoise("  ", x);
  }

  lemma ScanSkipsNewline(x: string)
    ensures Scan("\n" + x) == Scan(x)
  {
    NoOpenTagAt("\n", x, 0);
    ScanSkipsNoise("\n", x);
  }

  lemma RenderBlocksCons(es: seq<SitemapEntry>, rest: string)
    requires |es| > 0
    ensures RenderBlocks(es) + rest
            == "  " + (EntryBlock(es[0]) + ("\n" + (RenderBlocks(es[1..]) + rest)))
  {
    Reassociate("  ", EntryBlock(es[0]), "\n", RenderBlocks(es[1..]), rest);
  }

  lemma Reassociate(a: string, b: string, c: string, d: string, e: string)
    ensures a + b + c + d + e == a + (b + (c + (d + e)))
  {
  }

  /** The first rendered entry is scanned, then the scan resumes on the
      remaining blocks. */
  lemma ScanRenderBlocksStep(es: seq<SitemapEntry>, rest: string)
    requires |es| > 0 && Renderable(es[0])
    ensures Scan(RenderBlocks(es) + rest) == [es[0]] + Scan(RenderBlocks(es[1..]) + rest)
  {
    var x := RenderBlocks(es[1..]) + rest;
    RenderBlocksCons(es, rest);
    ScanSkipsIndent(EntryBlock(es[0]) + ("\n" + x));
    EntryBlockMatches(es[0], "\n" + x);
    ScanSkipsNewline(x);
  }

  lemma ConsAppend<T>(xs: seq<T>, ys: seq<T>)
    requires |xs| > 0
    ensures xs + ys == [xs[0]] + (xs[1..] + ys)
  {
  }

  lemma {:induction false} ScanRenderBlocks(es: seq<SitemapEntry>, rest: string)
    requires forall k :: 0 <= k < |es| ==> Renderable(es[k])
    ensures Scan(RenderBlocks(es) + rest) == es + Scan(rest)
    decreases |es|
  {
    if |es| == 0 {
      assert RenderBlocks(es) + rest == rest;
    } else {
      ScanRenderBlocksStep(es, rest);
      ScanRenderBlocks(es[1..], rest);
      ConsAppend(es, Scan(rest));
    }
  }

  lemma ScanSkipsUrlsetOpen(x: string)
    ensures Scan("<urlset>\n" + x) == Scan(x)
  {
    var p := "<urlset>\n";
    forall i | 0 <= i < |p|
      ensures !("<url>" <= (p + x)[i..])
    {
      NoOpenTagAt(p, x, i);
    }
    ScanSkipsNoise(p, x);
  }

  lemma ScanOfUrlsetClose()
    ensures Scan("</urlset>\n") == []
  {
    var p := "</urlset>\n";
    forall i | 0 <= i < |p|
      ensures !("<url>" <= (p + "")[i..])
    {
      NoOpenTagAt(p, "", i);
    }
    ScanSkipsNoise(p, "");
    assert p + "" == p;
  }

  /** Parsing a rendered sitemap gives back exactly its entries, in order. */
  lemma ParseRenderedSitemap(es: seq<SitemapEntry>, status: int)
    requires forall k :: 0 <= k < |es| ==> Renderable(es[k])
    ensures ParseSitemap(_ => Body(status, RenderSitemap(es)), "") == es
  {
    ScanRenderSitemap(es);
  }

  /** The scan of a rendered sitemap finds its entries, in order. */
  lemma ScanRenderSitemap(es: seq<SitemapEntry>)
    requires forall k :: 0 <= k < |es| ==> Renderable(es[k])
    ensures Scan(RenderSitemap(es)) == es
  {
    var tail := "</urlset>\n";
    RenderSitemapRegroup(es);
    ScanSkipsUrlsetOpen(RenderBlocks(es) + tail);
    ScanRenderBlocks(es, tail);
    ScanOfUrlsetClose();
    assert es + [] == es;
  }

  lemma RenderSitemapRegroup(es: seq<SitemapEntry>)
    ensures RenderSitemap(es) == "<urlset>\n" + (RenderBlocks(es) + "</urlset>\n")
  {
  }
}

=== FILE: sorting.dfy ===
/** Ordering used by `ORDER BY … DESC` in the analytics queries and by
    `Array.prototype.sort` in the report script: a stable insertion sort
    parameterised by a "comes no later than" relation. */
module Sorting {

  /** Every element is `geq` to the one after it. */
  predicate SortedBy<T>(s: seq<T>, geq: (T, T) -> bool) {
    forall i :: 0 < i < |s| ==> geq(s[i - 1], s[i])
  }

  /** Any two elements are comparable one way or the other. */
  ghost predicate Total<T(!new)>(geq: (T, T) -> bool) {
    forall a, b :: geq(a, b) || geq(b, a)
  }

  ghost predicate Transitive<T(!new)>(geq: (T, T) -> bool) {
    forall a, b, c :: geq(a, b) && geq(b, c) ==> geq(a, c)
  }

  /** Puts `x` in front of the first element it is `geq` to, so elements of
      `s` that tie with `x` stay behind it. */
  function Insert<T>(x: T, s: seq<T>, geq: (T, T) -> bool): (r: seq<T>)
    ensures |r| == |s| + 1
    ensures multiset(r) == multiset(s) + multiset{x}
    ensures r[0] == x || (|s| > 0 && r[0] == s[0])
    decreases |s|
  {
    if |s| == 0 || geq(x, s[0]) then [x] + s
    else
      var t := Insert(x, s[1..], geq);
      assert s == [s[0]] + s[1..];
      [s[0]] + t
  }

  /** Insertion sort from the back: earlier elements are inserted last and
      land in front of their ties, which keeps the sort stable. */
  function SortBy<T>(s: seq<T>, geq: (T, T) -> bool): (r: seq<T>)
    ensures |r| == |s|
    ensures multiset(r) == multiset(s)
    decreases |s|
  {
    if |s| == 0 then []
    else
      assert s == [s[0]] + s[1..];
      Insert(s[0], SortBy(s[1..], geq), geq)
  }

  lemma {:induction false} InsertSorted<T(!new)>(x: T, s: seq<T>, geq: (T, T) -> bool)
    requires Total(geq)
    requires SortedBy(s, geq)
    ensures SortedBy(Insert(x, s, geq), geq)
    decreases |s|
  {
    if |s| > 0 && !geq(x, s[0]) {
      InsertSorted(x, s[1..], geq);
      var t := Insert(x, s[1..], geq);
      assert geq(s[0], t[0]) by {
        if t[0] == x {
          assert geq(x, s[0]) || geq(s[0], x);
        } else {
          assert t[0] == s[1];
        }
      }
      var r := [s[0]] + t;
      forall i | 0 < i < |r|
        ensures geq(r[i - 1], r[i])
      {
        if i > 1 {
          assert r[i - 1] == t[i - 2] && r[i] == t[i - 1];
        }
      }
    }
  }

  /** The result of `SortBy` is ordered. */
  lemma {:induction false} SortBySorted<T(!new)>(s: seq<T>, geq: (T, T) -> bool)
    requires Total(geq)
    ensures SortedBy(SortBy(s, geq), geq)
    decreases |s|
  {
    if |s| > 0 {
      SortBySorted(s[1..], geq);
      InsertSorted(s[0], SortBy(s[1..], geq), geq);
    }
  }

  /** For a transitive relation, adjacent order gives order between any two
      positions. */
  lemma {:induction false} SortedPairwise<T(!new)>(s: seq<T>, geq: (T, T) -> bool, i: nat, j: nat)
    requires Transitive(geq)
    requires SortedBy(s, geq)
    requires i < j < |s|
    ensures geq(s[i], s[j])
    decreases j - i
  {
    if i + 1 < j {
      SortedPairwise(s, geq, i + 1, j);
    }
  }

  /** The first `n` elements (SQL `LIMIT n`, JavaScript `slice(0, n)`). */
  function Take<T>(s: seq<T>, n: nat): (r: seq<T>)
    ensures |r| == if |s| < n then |s| else n
    ensures r <= s
  {
    if |s| <= n then s else s[..n]
  }

  /** The first `n` elements are some of the elements. */
  lemma TakeIncluded<T>(s: seq<T>, n: nat)
    ensures multiset(Take(s, n)) <= multiset(s)
  {
    if n < |s| {
      assert s == s[..n] + s[n..];
    }
  }

  lemma TakeSorted<T>(s: seq<T>, n: nat, geq: (T, T) -> bool)
    requires SortedBy(s, geq)
    ensures SortedBy(Take(s, n), geq)
  {
  }
}

=== FILE: strings.dfy ===
/** String operations the TypeScript code and the SQLite queries rely on:
    first-occurrence search and removal (`String.prototype.replace` with a
    string pattern), the BINARY collation order SQLite uses to compare TEXT,
    and decimal rendering of counts inside template literals. */
module Strings {
  import opened Wrappers

  // ---------------------------------------------------------------------------
  // First occurrence of a pattern
  // ---------------------------------------------------------------------------

  /** `pat` occurs in `s` starting at index `i`. */
  predicate OccursAt(s: string, i: nat, pat: string) {
    i <= |s| && pat <= s[i..]
  }

  /** Index of the first occurrence of `pat` in `s`, if any. */
  function IndexOf(s: string, pat: string): (r: Option<nat>)
    ensures r.Some? ==> r.value + |pat| <= |s| && OccursAt(s, r.value, pat)
    ensures r.Some? ==> forall j :: 0 <= j < r.value ==> !OccursAt(s, j, pat)
    ensures r.None? ==> forall j :: 0 <= j <= |s| ==> !OccursAt(s, j, pat)
    decreases |s|
  {
    if pat <= s then Some(0)
    else if |s| == 0 then None
    else
      match IndexOf(s[1..], pat)
      case None =>
        assert forall j :: 1 <= j <= |s| ==> OccursAt(s, j, pat) == OccursAt(s[1..], j - 1, pat);
        None
      case Some(i) =>
        assert forall j :: 1 <= j <= i + 1 ==> OccursAt(s, j, pat) == OccursAt(s[1..], j - 1, pat);
        Some(i + 1)
  }

  /** `s.replace(pat, '')` in JavaScript: the first occurrence of `pat` is cut
      out, wherever it is; without an occurrence `s` is returned unchanged. */
  function RemoveFirst(s: string, pat: string): (r: string)
    ensures IndexOf(s, pat).None? ==> r == s
    ensures IndexOf(s, pat).Some? ==>
              var i := IndexOf(s, pat).value;
              r == s[..i] + s[i + |pat|..]
  {
    match IndexOf(s, pat)
    case None => s
    case Some(i) => s[..i] + s[i + |pat|..]
  }

  /** When `s` starts with `pat`, removing its first occurrence is a prefix strip. */
  lemma RemoveFirstOfPrefix(s: string, pat: string)
    requires pat <= s
    ensures RemoveFirst(s, pat) == s[|pat|..]
  {
    assert OccursAt(s, 0, pat);
  }

  /** When `pat` does not occur in `s`, the string is returned unchanged. */
  lemma RemoveFirstAbsent(s: string, pat: string)
    requires forall j :: 0 <= j <= |s| ==> !OccursAt(s, j, pat)
    ensures RemoveFirst(s, pat) == s
  {
  }

  /** Removal is not anchored: an occurrence after a non-matching prefix is
      removed too, keeping what precedes it. */
  lemma RemoveFirstInside(a: string, pat: string, b: string)
    requires |pat| > 0
    requires forall j :: 0 <= j <= |a| ==> !OccursAt(a + pat, j, pat) || j == |a|
    ensures RemoveFirst(a + pat + b, pat) == a + b
  {
    var s := a + pat + b;
    assert OccursAt(s, |a|, pat) by { assert s[|a|..][..|pat|] == pat; }
    forall j | 0 <= j < |a|
      ensures !OccursAt(s, j, pat)
    {
      if OccursAt(s, j, pat) {
        assert s[j..][..|pat|] == pat;
        assert (a + pat)[j..][..|pat|] == s[j..][..|pat|];
        assert OccursAt(a + pat, j, pat);
        assert false;
      }
    }
    var i := IndexOf(s, pat).value;
    assert i == |a|;
    assert s[..i] == a;
    assert s[i + |pat|..] == b;
  }

  // ---------------------------------------------------------------------------
  // SQLite BINARY collation: lexicographic order on code points
  // ---------------------------------------------------------------------------

  /** `a` sorts strictly before `b` under SQLite's BINARY collation, which
      compares UTF-8 bytes and therefore orders strings by code points, a proper
      prefix first. (Dafny's own `<` on sequences means "proper prefix".) */
  predicate LexLess(a: string, b: string)
    decreases |a|
  {
    if |a| == 0 then |b| > 0
    else if |b| == 0 then false
    else a[0] < b[0] || (a[0] == b[0] && LexLess(a[1..], b[1..]))
  }

  /** SQL `a <= b` on TEXT values. */
  predicate LexLeq(a: string, b: string) {
    a == b || LexLess(a, b)
  }

  lemma {:induction false} LexLessIrreflexive(a: string)
    ensures !LexLess(a, a)
    decreases |a|
  {
    if |a| > 0 {
      LexLessIrreflexive(a[1..]);
    }
  }

  lemma {:induction false} LexLessTransitive(a: string, b: string, c: string)
    requires LexLess(a, b) && LexLess(b, c)
    ensures LexLess(a, c)
    decreases |a|
  {
    if |a| > 0 && a[0] == b[0] && b[0] == c[0] {
      LexLessTransitive(a[1..], b[1..], c[1..]);
    }
  }

  /** Any two different strings are ordered one way or the other. */
  lemma {:induction false} LexLessTotal(a: string, b: string)
    ensures a == b || LexLess(a, b) || LexLess(b, a)
    decreases |a|
  {
    if |a| > 0 && |b| > 0 && a[0] == b[0] {
      LexLessTotal(a[1..], b[1..]);
      if a[1..] == b[1..] {
        assert a == [a[0]] + a[1..] && b == [b[0]] + b[1..];
      }
    }
  }

  lemma {:induction false} LexLessAsymmetric(a: string, b: string)
    requires LexLess(a, b)
    ensures !LexLess(b, a)
    decreases |a|
  {
    if |a| > 0 && |b| > 0 && a[0] == b[0] {
      LexLessAsymmetric(a[1..], b[1..]);
    }
  }

  /** A proper prefix sorts first: a date-only stamp "YYYY-MM-DD" is below any
      "YYYY-MM-DD HH:MM:SS" stamp of the same day. */
  lemma {:induction false} ProperPrefixIsLess(a: string, rest: string)
    requires |rest| > 0
    ensures LexLess(a, a + rest)
    decreases |a|
  {
    if |a| > 0 {
      assert (a + rest)[1..] == a[1..] + rest;
      ProperPrefixIsLess(a[1..], rest);
    }
  }

  // ---------------------------------------------------------------------------
  // Decimal rendering of non-negative integers (`${n}` in a template literal)
  // ---------------------------------------------------------------------------

  predicate IsDigit(c: char) {
    '0' <= c <= '9'
  }

  function DigitChar(d: nat): (c: char)
    requires d < 10
    ensures IsDigit(c) && c as int - '0' as int == d
  {
    (d + '0' as int) as char
  }

  /** Decimal digits of `n`, most significant first, without leading zeros. */
  function NatToDecimal(n: nat): (r: string)
    ensures |r| >= 1
    ensures forall i :: 0 <= i < |r| ==> IsDigit(r[i])
    ensures r[0] == '0' ==> n == 0
    decreases n
  {
    if n < 10 then [DigitChar(n)] else NatToDecimal(n / 10) + [DigitChar(n % 10)]
  }

  /** Value of a string of decimal digits (the reading `parseInt` gives it). */
  function DecimalValue(s: string): nat
    requires forall i :: 0 <= i < |s| ==> IsDigit(s[i])
    decreases |s|
  {
    if |s| == 0 then 0
    else
      assert IsDigit(s[|s| - 1]);
      var d := s[|s| - 1] as int - '0' as int;
      10 * DecimalValue(s[..|s| - 1]) + d
  }

  /** Reading back a rendered count gives the count. */
  lemma {:induction false} DecimalRoundTrip(n: nat)
    ensures DecimalValue(NatToDecimal(n)) == n
    decreases n
  {
    if n >= 10 {
      DecimalRoundTrip(n / 10);
      var r := NatToDecimal(n);
      assert r[..|r| - 1] == NatToDecimal(n / 10);
    }
  }

  /** Different counts render differently. */
  lemma DecimalInjective(m: nat, n: nat)
    requires NatToDecimal(m) == NatToDecimal(n)
    ensures m == n
  {
    DecimalRoundTrip(m);
    DecimalRoundTrip(n);
  }
}

=== FILE: url_table.dfy ===
/** The url-tracking table (`replicate_url_info` for ingestion, `urls` for the
    analytics endpoint) and the two ways a sitemap entry is written into it:
    the check-then-act `insertOrUpdateUrlInfo` and the single
    `INSERT … ON CONFLICT(url) DO UPDATE` statement. The `url` column is the
    table's unique key, so the table is a map from url to row. */
module UrlTable {
  import opened Wrappers

  /** One row of the table. */
  datatype UrlInfo = UrlInfo(
    sitename: string,
    url: string,
    lastModified: string,
    firstAppeared: string,
    runCount: int,
    modelName: string)

  /** Rows by their unique `url` column. */
  type Table = map<string, UrlInfo>

  /** Errors a single SQL statement can raise. */
  datatype DbError = UniqueConstraintFailed(url: string)

  /** Every row is filed under its own url, so there is at most one row per url. */
  predicate KeyedByUrl(t: Table) {
    forall u :: u in t ==> t[u].url == u
  }

  /** The columns an update never writes: which site and model the row is
      about, and when it was first seen. */
  predicate SameIdentity(a: UrlInfo, b: UrlInfo) {
    a.sitename == b.sitename && a.url == b.url &&
    a.firstAppeared == b.firstAppeared && a.modelName == b.modelName
  }

  /** Row `after` is row `before` seen once more, with `lastModified` set to
      `lastModified`. */
  predicate Bumped(before: UrlInfo, after: UrlInfo, lastModified: string) {
    SameIdentity(after, before) &&
    after.lastModified == lastModified && after.runCount == before.runCount + 1
  }

  /** The effect every upsert of `info` has on `t` when `lastModified` is the
      value the update branch writes. */
  ghost predicate UpsertOf(t: Table, info: UrlInfo, lastModified: string, r: Table) {
    && r.Keys == t.Keys + {info.url}
    && (info.url !in t ==> r[info.url] == info)
    && (info.url in t ==> Bumped(t[info.url], r[info.url], lastModified))
    && (forall u :: u in t && u != info.url ==> r[u] == t[u])
  }

  // ---------------------------------------------------------------------------
  // Single statements
  // ---------------------------------------------------------------------------

  /** `SELECT * FROM … WHERE url = ?` followed by `.first()`. */
  function SelectByUrl(t: Table, url: string): Option<UrlInfo> {
    if url in t then Some(t[url]) else None
  }

  /** `UPDATE … SET lastModified = ?, runCount = runCount + 1 WHERE url = ?`;
      a missing url matches no row. */
  function UpdateByUrl(t: Table, url: string, lastModified: string): (r: Table)
    ensures r.Keys == t.Keys
    ensures url in t ==> Bumped(t[url], r[url], lastModified)
    ensures forall u :: u in t && u != url ==> r[u] == t[u]
  {
    if url in t then
      var row := t[url];
      t[url := row.(lastModified := lastModified, runCount := row.runCount + 1)]
    else t
  }

  /** `INSERT INTO … VALUES (…)`, which the unique `url` column rejects when a
      row for that url exists already. */
  function InsertRow(t: Table, row: UrlInfo): (r: Result<Table, DbError>)
    ensures r.Failure? <==> row.url in t
    ensures r.Failure? ==> r.error == UniqueConstraintFailed(row.url)
    ensures r.Success? ==> r.value.Keys == t.Keys + {row.url} && r.value[row.url] == row
    ensures r.Success? ==> forall u :: u in t ==> r.value[u] == t[u]
  {
    if row.url in t then Failure(UniqueConstraintFailed(row.url))
    else Success(t[row.url := row])
  }

  // ---------------------------------------------------------------------------
  // Check-then-act upsert (insertOrUpdateUrlInfo)
  // ---------------------------------------------------------------------------

  /** The check reads table `seen`, the act runs against table `current`. They
      are the same table when nothing else writes between the two statements.
      The act fails only when the url appeared in between; when it vanished in
      between, the UPDATE matches no row and writes nothing. */
  function CheckThenAct(seen: Table, current: Table, info: UrlInfo): (r: Result<Table, DbError>)
    ensures r.Failure? <==> info.url !in seen && info.url in current
    ensures r.Failure? ==> r.error == UniqueConstraintFailed(info.url)
    ensures info.url in seen && info.url !in current ==> r == Success(current)
    ensures (info.url in seen <==> info.url in current) ==> r.Success? && UpsertOf(current, info, info.lastModified, r.value)
  {
    match SelectByUrl(seen, info.url)
    case Some(_) => Success(UpdateByUrl(current, info.url, info.lastModified))
    case None => InsertRow(current, info)
  }

  /** `insertOrUpdateUrlInfo`: an existing row only gets the new
      `lastModified` and one more run; otherwise `info` is inserted as given.
      Run on its own it never raises. */
  function InsertOrUpdateUrlInfo(t: Table, info: UrlInfo): (r: Result<Table, DbError>)
    ensures r.Success?
    ensures UpsertOf(t, info, info.lastModified, r.value)
  {
    CheckThenAct(t, t, info)
  }

  /** When another writer inserts the same url between the check and the act,
      the act's INSERT hits the unique constraint and the call throws. */
  lemma CheckThenActRace(seen: Table, current: Table, info: UrlInfo)
    requires info.url !in seen && info.url in current
    ensures CheckThenAct(seen, current, info) == Failure(UniqueConstraintFailed(info.url))
  {
  }

  // ---------------------------------------------------------------------------
  // Atomic upsert (INSERT … ON CONFLICT(url) DO UPDATE)
  // ---------------------------------------------------------------------------

  /** `INSERT … VALUES (values) ON CONFLICT(url) DO UPDATE SET lastModified = ?,
      runCount = runCount + 1`, where `setLastModified` is the parameter bound
      to the update clause. The statement never raises a conflict. */
  function InsertOnConflict(t: Table, values: UrlInfo, setLastModified: string): (r: Table)
    ensures UpsertOf(t, values, setLastModified, r)
  {
    match InsertRow(t, values)
    case Success(t') => t'
    case Failure(_) => UpdateByUrl(t, values.url, setLastModified)
  }

  /** Run one at a time, the two upserts write the same table when the update
      clause is bound to the inserted `lastModified`. */
  lemma UpsertsAgree(t: Table, info: UrlInfo)
    ensures InsertOrUpdateUrlInfo(t, info) == Success(InsertOnConflict(t, info, info.lastModified))
  {
  }

  // ---------------------------------------------------------------------------
  // Invariants
  // ---------------------------------------------------------------------------

  /** Any table related to `t` by an upsert of `info` keeps one row per url. */
  lemma UpsertKeepsKeyedByUrl(t: Table, info: UrlInfo, lastModified: string, r: Table)
    requires KeyedByUrl(t)
    requires UpsertOf(t, info, lastModified, r)
    ensures KeyedByUrl(r)
  {
    forall u | u in r
      ensures r[u].url == u
    {
      if u != info.url {
        assert u in t;
      }
    }
  }

  /** Rows only ever move forward: none disappears, `firstAppeared` and the
      other identity columns never change, and `runCount` never decreases. */
  ghost predicate Grows(before: Table, after: Table) {
    forall u :: u in before ==>
      u in after && SameIdentity(after[u], before[u]) &&
      after[u].runCount >= before[u].runCount
  }

  lemma GrowsReflexive(t: Table)
    ensures Grows(t, t)
  {
  }

  lemma GrowsTransitive(a: Table, b: Table, c: Table)
    requires Grows(a, b) && Grows(b, c)
    ensures Grows(a, c)
  {
  }

  /** One upsert of either kind makes the table grow. */
  lemma UpsertGrows(t: Table, info: UrlInfo, lastModified: string, r: Table)
    requires UpsertOf(t, info, lastModified, r)
    ensures Grows(t, r)
  {
    forall u | u in t
      ensures u in r && SameIdentity(r[u], t[u]) && r[u].runCount >= t[u].runCount
    {
      if u == info.url {
        assert Bumped(t[u], r[u], lastModified);
      }
    }
  }

  /** The `firstAppeared` supplied with an entry for a known url is ignored:
      the stored date stays the date of the first sighting. */
  lemma ExistingFirstAppearedKept(t: Table, info: UrlInfo)
    requires info.url in t
    ensures InsertOrUpdateUrlInfo(t, info).value[info.url].firstAppeared == t[info.url].firstAppeared
    ensures InsertOnConflict(t, info, info.lastModified)[info.url].firstAppeared == t[info.url].firstAppeared
  {
  }
}

=== FILE: wrappers.dfy ===
/** Result types shared by the model: `Option` for values that may be absent
    (SQL NULL, a failed lookup) and `Result` for operations that may throw. */
module Wrappers {

  datatype Option<+T> = None | Some(value: T)

  datatype Result<+R, +E> = Success(value: R) | Failure(error: E)
}
